=== FILE: README.md ===
# UI-Monitor funnel analytics in Dafny

UI-Monitor collects tagged UI reports per user session and turns them into
funnel analytics. This project models the pure core of that engine, from
`src/db/sessions.rs`, `src/db/percentage.rs` and `src/db/steps_analytics.rs`:

- **Matching** (`matching.dfy`): `TagGroup::contains_any`, `Session::group_ids`
  and `Session::contains_tag_group`. Each report is labelled with the id of
  the first tag group that shares a tag with it, or 0 when none does.
- **Runs** (`runs.dfy`): `Session::group_by_ids`, the single-pass fold that
  splits the reports into runs of equal id. It is modelled as the sequence of
  positions where the fold closes a run, and proved to give the maximal runs:
  they partition the reports, are uniform inside and differ across every
  boundary.
- **Grouping** (`grouping.dfy`): `Session::into_grouped_session`. It takes the
  last timestamp of each run, forms the differences from a running
  `last_timestamp`, and emits one step per run after the first with the
  absolute difference as its duration. Both the code as written and a
  corrected version are modelled (see Findings).
- **Durations** (`durations.dfy`): `get_session_duration` with its `as u64`
  cast, and the mean of `get_average_session_duration`.
- **Percentages** (`percentages.dfy`): the bounded `Percentage` newtype, its
  `From` conversion, and the arithmetic of `get_percentages` over an in-memory
  list of sessions.
- **Analysis** (`analysis.dfy`): `grouped_sessions_to_session_analysis` and
  `get_step_analysis`. Each step index gets the mean duration and the tag
  groups seen, in ascending order of count.
- **Frequency** (`frequency.dfy`): `TagGroupFrequency::new` and `merge`, the
  running integer mean.
- **Means** (`means.dfy`) and **Types** / **Wrappers** hold shared
  definitions: sums, the floor mean, the entities and `Option`/`Result`.

Conventions:

- Durations and timestamps are whole milliseconds.
- Integers are unbounded. The one cast whose wrap-around matters, `as u64` in
  `get_session_duration`, is written out as reduction modulo 2^64.
- Sessions and grouped sessions are passed in as sequences. The database
  fetches that produce them are not modelled.

## Model

| member | source | states |
|---|---|---|
| `Matching.AnyNameIn` | src/db/sessions.rs:30-37 | the nested loops return true exactly when the two tag lists have a tag in common |
| `Matching.ContainsAny` | src/db/sessions.rs:29-38 | true exactly when some tag of the group equals some tag of the report; never true for a report without tags |
| `Matching.FirstMatchIndex` | src/db/sessions.rs:168-170 | `find` yields a matching group with no matching group before it, and yields nothing exactly when no group matches |
| `Matching.MatchedId` | src/db/sessions.rs:167-171 | a report's id is the id of the first matching group, or 0 when none matches; a report without tags always gets 0 |
| `Matching.GroupIds` | src/db/sessions.rs:164-174 | one id per report, in report order, each the first-match id of that report |
| `Matching.AnyReportMatches` | src/db/sessions.rs:158-160 | `any` is true exactly when some report shares a tag with the group |
| `Matching.ContainsTagGroup` | src/db/sessions.rs:157-161 | a session contains a group exactly when one of its reports matches it |
| `Runs.RunEnds` | src/db/sessions.rs:176-192 | the fold closes at most one run per element and none when there is no element; the last run closes at the end, and every closing position is in range |
| `Runs.CloseRunStep` | src/db/sessions.rs:180-187 | one loop iteration (flush on a changed id, then push) keeps this invariant: runs close exactly where the id changes |
| `Runs.RunEndsAtChanges` | src/db/sessions.rs:176-192 | the whole fold closes runs exactly at id changes and at the end, starting from the sentinel `current_id` whatever its value |
| `Runs.GroupByIds` | src/db/sessions.rs:176-192 | there are as many runs as closing positions and no more runs than ids, and there are none exactly when there are no ids |
| `Runs.NoChangeOneRun` | src/db/sessions.rs:176-192 | ids that never change between neighbours form a single run, closing at the last element, so there is at most one run |
| `Runs.RunAt` | src/db/sessions.rs:180-189 | run `k` is the contiguous stretch of reports from the previous closing position to its own |
| `Runs.GroupByIdsPartition` | src/db/sessions.rs:176-192 | the runs concatenate back to the reports in order, and no run is empty |
| `Runs.RunHasOneId` | src/db/sessions.rs:181-186 | every report in a run carries the id of the run's last report |
| `Runs.RunIdsLabelRuns` | src/db/sessions.rs:180-187 | every element of run `k` carries run `k`'s id |
| `Runs.AllChangesRunIds` | src/db/sessions.rs:180-187 | when the id changes at every position, each report is a run of its own and the run ids are the report ids |
| `Runs.BoundaryAt` | src/db/sessions.rs:181-184 | the last id of run `k` differs from the first id of run `k + 1` |
| `Runs.GroupByIdsMaximal` | src/db/sessions.rs:176-192 | the runs are maximal: one id inside each run, different ids across every boundary |
| `Grouping.Abs` | src/db/sessions.rs:255 | `abs` gives the value or its negation, never negative |
| `Grouping.DurationsLoop` | src/db/sessions.rs:240-245 | the loop carrying `last_timestamp` from 0 yields each timestamp minus the one before it, the first minus 0 |
| `Grouping.DifferencesTelescope` | src/db/sessions.rs:240-245 | the differences are undone by running sums: the first `k + 1` add up to timestamp `k` |
| `Grouping.BuildSteps` | src/db/sessions.rs:249-257 | one step per run after the first, the step numbers running 0, 1, 2, … |
| `Grouping.BuildStepDuration` | src/db/sessions.rs:240-255 | step `i` lasts the absolute difference of the timestamps of runs `i` and `i + 1` |
| `Grouping.LastTimeOfRun` | src/db/sessions.rs:231-238 | a run's timestamp is the time of the report at which the run closes |
| `Grouping.StepGapAt` | src/db/sessions.rs:231-257 | step `i` lasts the absolute time between the last reports of runs `i` and `i + 1` |
| `Grouping.BuildStepsGaps` | src/db/sessions.rs:231-257 | the same gap statement, for every step at once |
| `Grouping.IntoGroupedSession` | src/db/sessions.rs:220-260 | as written: it needs at least one report and an in-range group lookup for each step; it gives one step fewer than there are runs, numbered from 0 |
| `Grouping.IntoGroupedSessionByRun` | src/db/sessions.rs:249-257 | corrected: same step count and numbering, with the group read at the run instead of the report |
| `Grouping.FrontendIdsInRange` | static/frontend/src/api/queries.js:4-9 | with groups numbered 0..n-1 as the web client sends them, every lookup of either version is in range; an empty group list maps every report to id 0, giving at most one run and no lookup |
| `Grouping.StepDurationsAreGaps` | src/db/sessions.rs:231-257 | each step of the grouped session lasts the absolute time between the reports that close two successive runs |
| `Grouping.ByRunStepDurationsAreGaps` | src/db/sessions.rs:231-257 | the corrected steps have the same durations |
| `Grouping.ByRunStepsMatchTheirRuns` | src/db/sessions.rs:249-257 | corrected step `i` carries `groups[id]` for the id every report of run `i + 1` was given |
| `Grouping.ByRunStepFoundGroup` | src/db/sessions.rs:164-172 | with the web client's numbering, corrected step `i` carries the group `find` picks for any report of run `i + 1`, or the group at position 0 when that report matches none |
| `Grouping.SingletonRunsAgree` | src/db/sessions.rs:249-257 | when adjacent reports never share an id, the as-written and corrected versions give the same grouped session |
| `Grouping.ExampleRuns` | src/db/sessions.rs:176-192 | ids 0, 0, 1 give two runs: reports 0-1 and report 2 |
| `Grouping.ReportIndexMislabelsStep` | src/db/sessions.rs:254 | reports A@0, A@100, B@150: as written, the only step is labelled `A`, a group that report 2 does not match; the corrected step is labelled `B` |
| `Grouping.StepDurationsSumToSpan` | src/db/sessions.rs:231-257 | for chronological reports, the step durations add up to the time from the end of the first run to the last report |
| `Durations.AsU64` | src/db/sessions.rs:198 | `as u64` keeps an in-range difference and adds 2^64 to a negative one |
| `Durations.SessionDuration` | src/db/sessions.rs:194-200 | as written: 0 for no reports; for two or more, the gap between reports 0 and 1, and for a negative gap that gap plus 2^64, the value the `as u64` cast gives; one report is outside its domain |
| `Durations.SingleReportPassesGuard` | src/db/sessions.rs:195-198 | a one-report session passes the `is_empty` guard although index 1 is out of range, so it lies outside the domain of `SessionDuration`, while the corrected version gives it 0 |
| `Durations.SessionDurationGuarded` | src/db/sessions.rs:194-200 | corrected: 0 for fewer than two reports, otherwise the same gap, plus 2^64 when it is negative |
| `Durations.GuardedAgrees` | src/db/sessions.rs:194-200 | the corrected duration equals the as-written one wherever the latter is defined |
| `Durations.SessionDurations` | src/db/sessions.rs:212-214 | one duration per session, each a `u64` value |
| `Durations.AverageSessionDuration` | src/db/sessions.rs:208-217 | 0 for no sessions, otherwise the floor of the mean duration |
| `Durations.AverageBetween` | src/db/sessions.rs:212-216 | the average lies between the shortest and the longest session duration |
| `Durations.AverageSessionDurationGuarded` | src/db/sessions.rs:208-217 | the corrected average is defined for every population: 0 for none, otherwise the floor of the mean |
| `Durations.GuardedAverageAgrees` | src/db/sessions.rs:208-217 | the corrected average equals the as-written one wherever the latter is defined |
| `Means.Mean` | src/db/sessions.rs:319 | unsigned division of a sum by a positive count is the largest `m` with `m * count <= sum` |
| `Means.MeanBetween` | src/db/sessions.rs:319 | the integer mean of values in `[lo, hi]` is in `[lo, hi]` |
| `Percentages.NewPercentage` | src/db/percentage.rs:5-11 | `new` succeeds exactly for values up to 100 and keeps the value unchanged |
| `Percentages.FromU32` | src/db/percentage.rs:18-20 | `From` is `new(..).unwrap()`: defined up to 100, and the identity there |
| `Percentages.SessionsWithTagGroup` | src/db/sessions.rs:113-117 | the filter keeps exactly the matching sessions; it keeps all of them exactly when all match, and none exactly when none does |
| `Percentages.SessionsKept` | src/db/sessions.rs:113-117 | each matching session is kept as often as it occurs and every other session is dropped, so the length is the number of matching sessions |
| `Percentages.PercentageOf` | src/db/sessions.rs:151-154 | count over total times 100, rounded down; it is 100 exactly when count equals total, 0 when the count is 0, and the `From` conversion never fails |
| `Percentages.Percentages` | src/db/sessions.rs:140-154 | no sessions is the `NoSessionFound` error and only then; otherwise one percentage per group, each the floor of its share |
| `Percentages.FullShareIffAllMatch` | src/db/sessions.rs:140-154 | a group gets 100 exactly when every session has a report matching it |
| `Percentages.TwoSessionExample` | src/db/sessions.rs:140-154 | sessions {A} and {A, B} give 100 for group A and 50 for group B |
| `Analysis.StepsAt` | src/db/sessions.rs:297-303 | at most one step per session, and none exactly when no session reaches step `k` |
| `Analysis.StepsAtCount` | src/db/sessions.rs:297-303 | exactly one step for each session that reaches step `k` |
| `Analysis.StepsAtMultiplicity` | src/db/sessions.rs:297-303 | each step is collected once for every session that has it at index `k` |
| `Analysis.StepsAtMembers` | src/db/sessions.rs:297-303 | the collected steps are exactly the step-`k` entries of the sessions that have one, each step occurring once per session that has it at index `k` |
| `Analysis.TallyCounts` | src/db/sessions.rs:306-307 | the count map has a key for each group seen and no other, and each value is how often that group was seen |
| `Analysis.Distinct` | src/db/sessions.rs:311-314 | the map's keys as a list: each group seen, exactly once |
| `Analysis.InsertByCount` | src/db/sessions.rs:315 | insertion adds exactly one element and keeps all the others |
| `Analysis.InsertByCountSorted` | src/db/sessions.rs:315 | insertion keeps the list in non-decreasing order of count |
| `Analysis.InsertByCountNoDuplicates` | src/db/sessions.rs:315 | inserting a new group keeps the list free of duplicates |
| `Analysis.SortByCount` | src/db/sessions.rs:315 | the sort returns a permutation of its input |
| `Analysis.SortByCountSorted` | src/db/sessions.rs:315 | the sort orders by count and keeps distinct groups distinct |
| `Analysis.GroupsByCount` | src/db/sessions.rs:306-320 | `tag_groups_sorted` holds every group seen at the step exactly once, in non-decreasing order of occurrence count |
| `Analysis.StepAnalysisAt` | src/db/sessions.rs:290-322 | the analysis has the step number `k` and the floor of the mean step-`k` duration over the sessions reaching `k` |
| `Analysis.StepAnalysisGroups` | src/db/sessions.rs:306-320 | its tag groups are those seen at step `k`, each once, in non-decreasing order of count |
| `Analysis.MaxSteps` | src/db/sessions.rs:281 | the step count of the longest session, and 0 for no sessions |
| `Analysis.StepReachedBelowMax` | src/db/sessions.rs:281-284 | every step index below the maximum is reached by some session, so the division never has a zero divisor |
| `Analysis.SessionAnalysis` | src/db/sessions.rs:278-288 | one analysis per step index up to the maximum, entry `k` for step `k` and computed from the sessions that reach it, of which there is at least one; empty input gives empty output |
| `Analysis.AverageDurationBetween` | src/db/sessions.rs:319 | a step's average duration lies between the shortest and the longest duration of that step |
| `Analysis.StepTotals` | src/db/sessions.rs:291-308 | the per-session loop counts the sessions reaching step `k`, sums their durations and tallies their tag groups |
| `Frequency.NewFrequency` | src/db/steps_analytics.rs:13-19 | a new frequency has the step's tag group, count 1, and the step's duration as its average |
| `Frequency.Merge` | src/db/steps_analytics.rs:21-27 | `merge` raises the count by one, keeps the tag group, and sets the average to the floor of (average × old count + duration) / new count |
| `Frequency.MergeBetween` | src/db/steps_analytics.rs:22-25 | if the average and the new duration both lie in `[lo, hi]`, the merged average does too |
| `Frequency.Accumulate` | src/db/steps_analytics.rs:13-27 | `new` then `merge` over a list of steps counts every step and keeps the first step's group; no steps gives nothing |
| `Frequency.AccumulateBetween` | src/db/steps_analytics.rs:13-27 | the running average lies between the shortest and the longest duration folded in |
| `Frequency.AccumulateBelowTotal` | src/db/steps_analytics.rs:22-25 | the running average times the count never exceeds the true total duration |
| `Frequency.RunningAverageDrifts` | src/db/steps_analytics.rs:22-25 | durations 0, 1, 2 give a running average of 0 where the floor of the mean is 1 |

## Left out

- The async database access is not modelled: `get_sessions`, `get_session`, `get_session_ids`, `get_sessions_count`, the fetch half of `get_sessions_with_tag_group` and `get_percentages`, and the `join_all` fan-out. It is SQL and connection-pool I/O, and the model takes the sessions as a sequence instead.
- The HTTP layer is not modelled: the `Responder` implementation, serde serialisation and the route handlers are routing and JSON plumbing.
- The `println!` debugging output in `into_grouped_session` is not modelled, because it does not affect the result.
- Percentages.PercentageOf: `get_percentages` computes in `f64` and truncates. The model uses exact integer `count * 100 / total`, and the `f64` result can be one lower (29 out of 100 gives 28).
- Durations.AverageSessionDuration: the `u64` sum in the code can overflow. The model sums exactly, so it describes populations whose total duration fits in a `u64`.
- Durations.SessionDuration: the `i64` subtraction of the two timestamps can overflow in the code. The model subtracts exactly and then reduces modulo 2^64, so it describes timestamps whose difference fits in an `i64`.
- Grouping.Abs: the `i64` subtraction of two timestamps and `abs` of `i64::MIN` can overflow in the code. The model uses unbounded integers there.
- Analysis.StepAnalysisAt: the `u128` duration sum, the `u32` counts and the `as i64` cast are unbounded in the model. Overflowing the `u32` counts would need more than 2^32 sessions reaching one step index, and overflowing the `as i64` cast would need step durations above 2^63 milliseconds.
- Frequency.Merge: the `u128` intermediate and the `u32` count are unbounded in the model. The quotient never exceeds the larger of the old average and the new duration (`MergeBetween`), so the `as u64` cast cannot truncate.
- The order of tag groups with equal counts in `tag_groups_sorted` is not specified. It comes from `HashMap` iteration order. The model lists groups by first appearance and sorts by count only, and its contracts state nothing about the order among equal counts.
- `tag_group_frequency_at_step` is not modelled. It never writes to its map, discards every result, and panics on sessions with no step at that index. Only the `new`/`merge` pair it would use is modelled (`Frequency.Accumulate`).
- `NoSessionFound` is not a variant of the `DataError` enum in `src/dberror.rs`. The model gives `get_percentages` its own error type with that one case.
- The web client is not modelled. It matters only as the origin of the group numbering 0..n-1 (`Grouping.FrontendNumbering`). That numbering coincides with the "no match" id 0.

## Findings

| source | as written | input that shows it | evidently intended | confidence | as-written member | corrected member |
|---|---|---|---|---|---|---|
| src/db/sessions.rs:254 | step `idx` takes the group at `tag_group_ids[idx + 1]`, the id of REPORT `idx + 1` | reports A@0, A@100, B@150 with groups A = 0, B = 1: the only step covers the `B` run but is labelled `A` | the id of RUN `idx + 1`, so each step carries the group its reports matched | not executed | `Grouping.IntoGroupedSession`, `Grouping.ReportIndexMislabelsStep` | `Grouping.IntoGroupedSessionByRun`, `Grouping.ByRunStepsMatchTheirRuns`, `Grouping.ByRunStepFoundGroup` |
| src/db/sessions.rs:194-200 | the guard tests `is_empty` and then reads `reports[1]` | a session with exactly one report passes the guard and indexes out of bounds | sessions with fewer than two reports have duration 0 | not executed | `Durations.SessionDuration`, `Durations.SingleReportPassesGuard` | `Durations.SessionDurationGuarded`, `Durations.GuardedAgrees` |

=== FILE: analysis.dfy ===
/**
 * Funnel step analysis: `grouped_sessions_to_session_analysis` and
 * `get_step_analysis`. For every step index up to the longest session, the
 * mean duration of that step over the sessions that reach it, and the tag
 * groups seen there ordered by how often they were seen.
 */
module Analysis {
  import opened Types
  import opened Means

  /** The step at index `k` of every grouped session that has one, in session order. */
  function StepsAt(gss: seq<GroupedSession>, k: nat): (steps: seq<Step>)
    ensures |steps| <= |gss|
    ensures |steps| == 0 <==> forall i :: 0 <= i < |gss| ==> |gss[i].steps| <= k
  {
    if |gss| == 0 then []
    else
      var last := gss[|gss| - 1];
      StepsAt(gss[..|gss| - 1], k) + if k < |last.steps| then [last.steps[k]] else []
  }

  /** The durations of the steps, in order. */
  function StepDurations(steps: seq<Step>): (ds: seq<int>)
    ensures |ds| == |steps|
  {
    seq(|steps|, i requires 0 <= i < |steps| => steps[i].duration)
  }

  /** The tag groups of the steps, in order. */
  function TagGroupsOf(steps: seq<Step>): (tgs: seq<TagGroup>)
    ensures |tgs| == |steps|
  {
    seq(|steps|, i requires 0 <= i < |steps| => steps[i].tagGroup)
  }

  /** Counts one more occurrence of `g`, starting from 0 when it is new. */
  function Bump(counts: map<TagGroup, nat>, g: TagGroup): map<TagGroup, nat> {
    counts[g := (if g in counts then counts[g] else 0) + 1]
  }

  /** The `tag_group_counts` map, filled one occurrence at a time. */
  function Tally(tgs: seq<TagGroup>): map<TagGroup, nat> {
    if |tgs| == 0 then map[] else Bump(Tally(tgs[..|tgs| - 1]), tgs[|tgs| - 1])
  }

  /**
   * The tally has a key for every group seen and no other, and each key's
   * value is the number of times that group was seen.
   */
  lemma {:induction false} TallyCounts(tgs: seq<TagGroup>)
    ensures forall g :: g in Tally(tgs) <==> g in tgs
    ensures forall g :: g in Tally(tgs) ==> Tally(tgs)[g] == multiset(tgs)[g]
  {
    if |tgs| > 0 {
      var init := tgs[..|tgs| - 1];
      assert tgs == init + [tgs[|tgs| - 1]];
      TallyCounts(init);
    }
  }

  /** No tag group occurs twice. */
  predicate NoDuplicates(s: seq<TagGroup>) {
    forall i, j :: 0 <= i < j < |s| ==> s[i] != s[j]
  }

  /** Each tag group once, in order of first occurrence. */
  function Distinct(tgs: seq<TagGroup>): (ds: seq<TagGroup>)
    ensures forall g :: g in ds <==> g in tgs
    ensures NoDuplicates(ds)
  {
    if |tgs| == 0 then []
    else
      var init := tgs[..|tgs| - 1];
      var g := tgs[|tgs| - 1];
      assert forall x :: x in tgs <==> x in init || x == g;
      var ds := Distinct(init);
      if g in ds then ds else ds + [g]
  }

  /** Every group has a count, and the counts never decrease along the sequence. */
  predicate CountSorted(s: seq<TagGroup>, counts: map<TagGroup, nat>) {
    && (forall i :: 0 <= i < |s| ==> s[i] in counts)
    && (forall i, j :: 0 <= i <= j < |s| ==> counts[s[i]] <= counts[s[j]])
  }

  /** Inserts `g` before the first group with a larger count. */
  function InsertByCount(g: TagGroup, s: seq<TagGroup>, counts: map<TagGroup, nat>): (r: seq<TagGroup>)
    requires g in counts
    requires forall i :: 0 <= i < |s| ==> s[i] in counts
    ensures |r| == |s| + 1
    ensures forall i :: 0 <= i < |r| ==> r[i] in counts
    ensures multiset(r) == multiset(s) + multiset{g}
    ensures forall x :: x in r <==> x == g || x in s
  {
    if |s| == 0 then [g]
    else if counts[g] < counts[s[0]] then [g] + s
    else
      assert s == [s[0]] + s[1..];
      [s[0]] + InsertByCount(g, s[1..], counts)
  }

  /** Every group has a count of at least `b`. */
  predicate AllAtLeast(s: seq<TagGroup>, counts: map<TagGroup, nat>, b: int) {
    forall i :: 0 <= i < |s| ==> s[i] in counts && b <= counts[s[i]]
  }

  /** Inserting a group whose count is at least `b` keeps every count at least `b`. */
  lemma {:induction false} InsertByCountAtLeast(g: TagGroup, s: seq<TagGroup>, counts: map<TagGroup, nat>, b: int)
    requires g in counts && b <= counts[g]
    requires AllAtLeast(s, counts, b)
    ensures AllAtLeast(InsertByCount(g, s, counts), counts, b)
  {
    if |s| > 0 && counts[s[0]] <= counts[g] {
      InsertByCountAtLeast(g, s[1..], counts, b);
    }
  }

  /** A group in front of count-sorted groups whose counts are at least its own. */
  lemma ConsSorted(x: TagGroup, s: seq<TagGroup>, counts: map<TagGroup, nat>)
    requires x in counts
    requires CountSorted(s, counts) && AllAtLeast(s, counts, counts[x])
    ensures CountSorted([x] + s, counts)
  {
    assert forall j :: 0 < j < |[x] + s| ==> ([x] + s)[j] == s[j - 1];
  }

  /** Inserting into a count-sorted sequence keeps it count-sorted. */
  lemma {:induction false} InsertByCountSorted(g: TagGroup, s: seq<TagGroup>, counts: map<TagGroup, nat>)
    requires g in counts
    requires CountSorted(s, counts)
    ensures CountSorted(InsertByCount(g, s, counts), counts)
  {
    if |s| == 0 {
    } else if counts[g] < counts[s[0]] {
      ConsSorted(g, s, counts);
    } else {
      InsertByCountSorted(g, s[1..], counts);
      InsertByCountAtLeast(g, s[1..], counts, counts[s[0]]);
      ConsSorted(s[0], InsertByCount(g, s[1..], counts), counts);
    }
  }

  /** Inserting a group that is not yet present keeps the sequence free of duplicates. */
  lemma {:induction false} InsertByCountNoDuplicates(g: TagGroup, s: seq<TagGroup>, counts: map<TagGroup, nat>)
    requires g in counts
    requires forall i :: 0 <= i < |s| ==> s[i] in counts
    requires NoDuplicates(s) && g !in s
    ensures NoDuplicates(InsertByCount(g, s, counts))
  {
    if |s| > 0 && counts[s[0]] <= counts[g] {
      var rest := InsertByCount(g, s[1..], counts);
      assert s[0] !in s[1..];
      assert g !in s[1..];
      InsertByCountNoDuplicates(g, s[1..], counts);
      var r := [s[0]] + rest;
      assert r == InsertByCount(g, s, counts);
      forall j | 0 < j < |r|
        ensures r[0] != r[j]
      {
        assert r[j] == rest[j - 1];
        assert rest[j - 1] in rest;
      }
    }
  }

  /**
   * The ascending sort by count (`sort_by(|l, r| l.1.cmp(&r.1))`); the order
   * among equal counts is not promised.
   */
  function SortByCount(s: seq<TagGroup>, counts: map<TagGroup, nat>): (r: seq<TagGroup>)
    requires forall i :: 0 <= i < |s| ==> s[i] in counts
    ensures |r| == |s|
    ensures forall i :: 0 <= i < |r| ==> r[i] in counts
    ensures multiset(r) == multiset(s)
    ensures forall x :: x in r <==> x in s
  {
    if |s| == 0 then []
    else
      assert s == [s[0]] + s[1..];
      InsertByCount(s[0], SortByCount(s[1..], counts), counts)
  }

  /** The sort orders by count and, given distinct groups, keeps them distinct. */
  lemma {:induction false} SortByCountSorted(s: seq<TagGroup>, counts: map<TagGroup, nat>)
    requires forall i :: 0 <= i < |s| ==> s[i] in counts
    ensures CountSorted(SortByCount(s, counts), counts)
    ensures NoDuplicates(s) ==> NoDuplicates(SortByCount(s, counts))
  {
    if |s| > 0 {
      var tail := SortByCount(s[1..], counts);
      SortByCountSorted(s[1..], counts);
      InsertByCountSorted(s[0], tail, counts);
      if NoDuplicates(s) {
        assert NoDuplicates(s[1..]);
        assert s[0] !in s[1..];
        InsertByCountNoDuplicates(s[0], tail, counts);
      }
    }
  }

  /**
   * The `tag_groups_sorted` field for the tag groups seen at one step: each
   * group seen exactly once, in non-decreasing order of how often it was seen.
   */
  function GroupsByCount(tgs: seq<TagGroup>): (r: seq<TagGroup>)
    ensures forall g :: g in r <==> g in tgs
    ensures NoDuplicates(r)
    ensures forall i, j :: 0 <= i <= j < |r| ==> multiset(tgs)[r[i]] <= multiset(tgs)[r[j]]
  {
    var counts := Tally(tgs);
    var ds := Distinct(tgs);
    TallyCounts(tgs);
    assert forall i :: 0 <= i < |ds| ==> ds[i] in ds;
    var sorted := SortByCount(ds, counts);
    SortByCountSorted(ds, counts);
    forall i | 0 <= i < |sorted|
      ensures counts[sorted[i]] == multiset(tgs)[sorted[i]]
    {
      assert sorted[i] in sorted;
    }
    sorted
  }

  /**
   * `get_step_analysis` for a step index some session reaches (the code
   * divides by the number of such sessions).
   */
  function StepAnalysisAt(gss: seq<GroupedSession>, k: nat): (a: StepAnalysis)
    requires |StepsAt(gss, k)| > 0
    ensures a.stepNumber == k
    ensures var ds := StepDurations(StepsAt(gss, k));
      a.averageDuration * |ds| <= Sum(ds) < (a.averageDuration + 1) * |ds|
  {
    var steps := StepsAt(gss, k);
    var ds := StepDurations(steps);
    StepAnalysis(k, Mean(ds), GroupsByCount(TagGroupsOf(steps)))
  }

  /**
   * The tag groups of a step analysis: every group seen at step `k` exactly
   * once, in non-decreasing order of the number of sessions that showed it.
   */
  lemma StepAnalysisGroups(gss: seq<GroupedSession>, k: nat)
    requires |StepsAt(gss, k)| > 0
    ensures var tgs := TagGroupsOf(StepsAt(gss, k));
      var r := StepAnalysisAt(gss, k).tagGroupsSorted;
      && (forall g :: g in r <==> g in tgs)
      && NoDuplicates(r)
      && (forall i, j :: 0 <= i <= j < |r| ==> multiset(tgs)[r[i]] <= multiset(tgs)[r[j]])
  {
    assert StepAnalysisAt(gss, k).tagGroupsSorted == GroupsByCount(TagGroupsOf(StepsAt(gss, k)));
  }

  /** The indices of the sessions that reach step `k`. */
  ghost function Reaching(gss: seq<GroupedSession>, k: nat): set<int> {
    set i | 0 <= i < |gss| && k < |gss[i].steps|
  }

  /** The indices of the sessions whose step `k` is `st`. */
  ghost function ReachingWith(gss: seq<GroupedSession>, k: nat, st: Step): set<int> {
    set i | 0 <= i < |gss| && k < |gss[i].steps| && gss[i].steps[k] == st
  }

  /** Adding a session adds its index to `Reaching` exactly when it reaches step `k`. */
  lemma ReachingSnoc(gss: seq<GroupedSession>, k: nat)
    requires |gss| > 0
    ensures var n := |gss| - 1;
      |Reaching(gss, k)| == |Reaching(gss[..n], k)| + (if k < |gss[n].steps| then 1 else 0)
  {
    var n := |gss| - 1;
    var a := Reaching(gss[..n], k);
    var extra: set<int> := if k < |gss[n].steps| then {n} else {};
    assert Reaching(gss, k) == a + extra;
    assert a !! extra;
  }

  /** Adding a session adds its index to `ReachingWith` exactly when its step `k` is `st`. */
  lemma ReachingWithSnoc(gss: seq<GroupedSession>, k: nat, st: Step)
    requires |gss| > 0
    ensures var n := |gss| - 1;
      |ReachingWith(gss, k, st)| ==
      |ReachingWith(gss[..n], k, st)| + (if k < |gss[n].steps| && gss[n].steps[k] == st then 1 else 0)
  {
    var n := |gss| - 1;
    var a := ReachingWith(gss[..n], k, st);
    var extra: set<int> := if k < |gss[n].steps| && gss[n].steps[k] == st then {n} else {};
    assert ReachingWith(gss, k, st) == a + extra;
    assert a !! extra;
  }

  /** One step for every session that reaches step `k`, and no more. */
  lemma {:induction false} StepsAtCount(gss: seq<GroupedSession>, k: nat)
    ensures |StepsAt(gss, k)| == |Reaching(gss, k)|
  {
    if |gss| > 0 {
      StepsAtCount(gss[..|gss| - 1], k);
      ReachingSnoc(gss, k);
    }
  }

  /** A step is collected once for each session that has it at index `k`. */
  lemma {:induction false} StepsAtMultiplicity(gss: seq<GroupedSession>, k: nat, st: Step)
    ensures multiset(StepsAt(gss, k))[st] == |ReachingWith(gss, k, st)|
  {
    if |gss| > 0 {
      StepsAtMultiplicity(gss[..|gss| - 1], k, st);
      ReachingWithSnoc(gss, k, st);
    }
  }

  /**
   * A step is collected exactly when some session has it at index `k`, and
   * it is collected once for each such session.
   */
  lemma {:induction false} StepsAtMembers(gss: seq<GroupedSession>, k: nat, st: Step)
    ensures st in StepsAt(gss, k) <==>
      exists i :: 0 <= i < |gss| && k < |gss[i].steps| && gss[i].steps[k] == st
    ensures multiset(StepsAt(gss, k))[st] == |ReachingWith(gss, k, st)|
  {
    StepsAtMultiplicity(gss, k, st);
    if |gss| > 0 {
      var init := gss[..|gss| - 1];
      StepsAtMembers(init, k, st);
      if st in StepsAt(gss, k) && st !in StepsAt(init, k) {
        assert gss[|gss| - 1].steps[k] == st;
      }
      if i :| 0 <= i < |gss| && k < |gss[i].steps| && gss[i].steps[k] == st {
        if i < |gss| - 1 {
          assert init[i] == gss[i];
        }
      }
    }
  }

  /** The number of steps of the longest session (`max_steps`, 0 when there is none). */
  function MaxSteps(gss: seq<GroupedSession>): (m: nat)
    ensures forall i :: 0 <= i < |gss| ==> |gss[i].steps| <= m
    ensures |gss| > 0 ==> exists i :: 0 <= i < |gss| && |gss[i].steps| == m
    ensures |gss| == 0 ==> m == 0
  {
    if |gss| == 0 then 0
    else
      var rest := MaxSteps(gss[1..]);
      assert forall i :: 1 <= i < |gss| ==> gss[i] == gss[1..][i - 1];
      if |gss[0].steps| >= rest then |gss[0].steps| else rest
  }

  /** Every step index below the maximum is reached by some session, so the mean is defined. */
  lemma StepReachedBelowMax(gss: seq<GroupedSession>, k: nat)
    requires k < MaxSteps(gss)
    ensures |StepsAt(gss, k)| > 0
  {
    var i :| 0 <= i < |gss| && |gss[i].steps| == MaxSteps(gss);
    assert k < |gss[i].steps|;
  }

  /** `grouped_sessions_to_session_analysis`: one analysis per step index, in step order. */
  function SessionAnalysis(gss: seq<GroupedSession>): (r: seq<StepAnalysis>)
    ensures |r| == MaxSteps(gss)
    ensures |gss| == 0 ==> |r| == 0
    ensures forall k :: 0 <= k < |r| ==> r[k].stepNumber == k
    ensures forall k :: 0 <= k < |r| ==> |StepsAt(gss, k)| > 0 && r[k] == StepAnalysisAt(gss, k)
  {
    assert forall k :: 0 <= k < MaxSteps(gss) ==> |StepsAt(gss, k)| > 0 by {
      forall k | 0 <= k < MaxSteps(gss)
        ensures |StepsAt(gss, k)| > 0
      {
        StepReachedBelowMax(gss, k);
      }
    }
    seq(MaxSteps(gss), k requires 0 <= k < MaxSteps(gss) => StepAnalysisAt(gss, k))
  }

  /**
   * The average duration of a step lies between the shortest and the longest
   * duration recorded for that step.
   */
  lemma AverageDurationBetween(gss: seq<GroupedSession>, k: nat, lo: int, hi: int)
    requires |StepsAt(gss, k)| > 0
    requires forall st :: st in StepsAt(gss, k) ==> lo <= st.duration <= hi
    ensures lo <= StepAnalysisAt(gss, k).averageDuration <= hi
  {
    var steps := StepsAt(gss, k);
    var ds := StepDurations(steps);
    forall i | 0 <= i < |ds|
      ensures lo <= ds[i] <= hi
    {
      assert steps[i] in steps;
    }
    MeanBetween(ds, lo, hi);
  }

  /** One more session adds its step `k`, if it has one. */
  lemma StepsAtExtend(gss: seq<GroupedSession>, i: nat, k: nat)
    requires i < |gss|
    ensures k < |gss[i].steps| ==> StepsAt(gss[..i + 1], k) == StepsAt(gss[..i], k) + [gss[i].steps[k]]
    ensures |gss[i].steps| <= k ==> StepsAt(gss[..i + 1], k) == StepsAt(gss[..i], k)
  {
    assert gss[..i + 1][..i] == gss[..i];
    assert StepsAt(gss[..i], k) + [] == StepsAt(gss[..i], k);
  }

  /** One more step adds its duration to the sum. */
  lemma DurationSumExtend(steps: seq<Step>, st: Step)
    ensures Sum(StepDurations(steps + [st])) == Sum(StepDurations(steps)) + st.duration
  {
    assert StepDurations(steps + [st])[..|steps|] == StepDurations(steps);
  }

  /** One more step bumps its tag group's count, inserting it at 1 when new. */
  lemma TallyExtend(steps: seq<Step>, st: Step)
    ensures Tally(TagGroupsOf(steps + [st])) == Bump(Tally(TagGroupsOf(steps)), st.tagGroup)
  {
    assert TagGroupsOf(steps + [st])[..|steps|] == TagGroupsOf(steps);
  }

  /** One more session adds one to the count, its duration to the sum and its group to the tally. */
  lemma TotalsExtend(gss: seq<GroupedSession>, i: nat, k: nat)
    requires i < |gss|
    ensures var before := StepsAt(gss[..i], k);
      var after := StepsAt(gss[..i + 1], k);
      if k < |gss[i].steps| then
        && |after| == |before| + 1
        && Sum(StepDurations(after)) == Sum(StepDurations(before)) + gss[i].steps[k].duration
        && Tally(TagGroupsOf(after)) == Bump(Tally(TagGroupsOf(before)), gss[i].steps[k].tagGroup)
      else
        after == before
  {
    StepsAtExtend(gss, i, k);
    if k < |gss[i].steps| {
      DurationSumExtend(StepsAt(gss[..i], k), gss[i].steps[k]);
      TallyExtend(StepsAt(gss[..i], k), gss[i].steps[k]);
    }
  }

  /**
   * The per-session loop of `get_step_analysis`: the number of sessions that
   * reach step `k`, the sum of their step-`k` durations and the tag-group
   * counts, accumulated one session at a time.
   */
  method StepTotals(gss: seq<GroupedSession>, k: nat)
    returns (stepCount: nat, durationSum: int, counts: map<TagGroup, nat>)
    ensures stepCount == |StepsAt(gss, k)|
    ensures durationSum == Sum(StepDurations(StepsAt(gss, k)))
    ensures counts == Tally(TagGroupsOf(StepsAt(gss, k)))
  {
    stepCount, durationSum, counts := 0, 0, map[];
    for i := 0 to |gss|
      invariant stepCount == |StepsAt(gss[..i], k)|
      invariant durationSum == Sum(StepDurations(StepsAt(gss[..i], k)))
      invariant counts == Tally(TagGroupsOf(StepsAt(gss[..i], k)))
    {
      TotalsExtend(gss, i, k);
      if k < |gss[i].steps| {
        var st := gss[i].steps[k];
        stepCount := stepCount + 1;
        durationSum := durationSum + st.duration;
        counts := Bump(counts, st.tagGroup);
      }
    }
    assert gss[..|gss|] == gss;
  }
}

=== FILE: durations.dfy ===
/**
 * Session durations: `Session::get_session_duration` and the population
 * mean of `Session::get_average_session_duration`. Durations are whole
 * milliseconds.
 */
module Durations {
  import opened Types
  import opened Means

  /** 2^64: the number of values of a `u64`. */
  const U64_MODULUS: int := 0x1_0000_0000_0000_0000

  /**
   * The `as u64` cast of a signed 64-bit difference: the two's-complement bit
   * pattern read as unsigned, that is, the difference reduced modulo 2^64.
   */
  function AsU64(x: int): (r: nat)
    ensures r < U64_MODULUS
    ensures 0 <= x < U64_MODULUS ==> r == x
    ensures -U64_MODULUS <= x < 0 ==> r == x + U64_MODULUS
  {
    x % U64_MODULUS
  }

  /**
   * As written: `is_empty` gives 0, anything else reads reports 0 and 1, so
   * a session with exactly one report indexes past its end.
   */
  function SessionDuration(s: Session): (d: nat)
    requires |s.reports| != 1
    ensures |s.reports| == 0 ==> d == 0
    ensures |s.reports| >= 2 && 0 <= s.reports[1].timeMs - s.reports[0].timeMs < U64_MODULUS ==>
      d == s.reports[1].timeMs - s.reports[0].timeMs
    ensures |s.reports| >= 2 && -U64_MODULUS <= s.reports[1].timeMs - s.reports[0].timeMs < 0 ==>
      d == s.reports[1].timeMs - s.reports[0].timeMs + U64_MODULUS
  {
    if |s.reports| == 0 then 0
    else AsU64(s.reports[1].timeMs - s.reports[0].timeMs)
  }

  /**
   * A one-report session is not empty, so it passes the guard and reaches
   * index 1: it lies outside the domain of `SessionDuration`, while the
   * corrected version gives it 0.
   */
  lemma SingleReportPassesGuard(r: Report)
    ensures |Session(0, [r]).reports| != 0
    ensures !(1 < |Session(0, [r]).reports|)
    ensures |Session(0, [r]).reports| == 1
    ensures SessionDurationGuarded(Session(0, [r])) == 0
  {
  }

  /** Corrected: fewer than two reports give 0, so every session has a duration. */
  function SessionDurationGuarded(s: Session): (d: nat)
    ensures |s.reports| < 2 ==> d == 0
    ensures |s.reports| >= 2 && 0 <= s.reports[1].timeMs - s.reports[0].timeMs < U64_MODULUS ==>
      d == s.reports[1].timeMs - s.reports[0].timeMs
    ensures |s.reports| >= 2 && -U64_MODULUS <= s.reports[1].timeMs - s.reports[0].timeMs < 0 ==>
      d == s.reports[1].timeMs - s.reports[0].timeMs + U64_MODULUS
  {
    if |s.reports| < 2 then 0
    else AsU64(s.reports[1].timeMs - s.reports[0].timeMs)
  }

  /** The guard changes nothing where the code as written does not fail. */
  lemma GuardedAgrees(s: Session)
    requires |s.reports| != 1
    ensures SessionDurationGuarded(s) == SessionDuration(s)
  {
  }

  /** No session with exactly one report. */
  predicate NoSingleReport(sessions: seq<Session>) {
    forall i :: 0 <= i < |sessions| ==> |sessions[i].reports| != 1
  }

  /** The duration of every session, in order. */
  function SessionDurations(sessions: seq<Session>): (ds: seq<int>)
    requires NoSingleReport(sessions)
    ensures |ds| == |sessions|
    ensures forall i :: 0 <= i < |ds| ==> 0 <= ds[i] < U64_MODULUS
  {
    seq(|sessions|, i requires 0 <= i < |sessions| => SessionDuration(sessions[i]))
  }

  /**
   * `get_average_session_duration`: 0 for no sessions, otherwise the floor
   * of the mean duration.
   */
  function AverageSessionDuration(sessions: seq<Session>): (avg: nat)
    requires NoSingleReport(sessions)
    ensures |sessions| == 0 ==> avg == 0
    ensures |sessions| > 0 ==>
      avg * |sessions| <= Sum(SessionDurations(sessions)) < (avg + 1) * |sessions|
  {
    if |sessions| == 0 then 0
    else
      var ds := SessionDurations(sessions);
      MeanBetween(ds, 0, U64_MODULUS - 1);
      Mean(ds)
  }

  /** The average lies between the shortest and the longest session duration. */
  lemma AverageBetween(sessions: seq<Session>, lo: int, hi: int)
    requires NoSingleReport(sessions)
    requires |sessions| > 0
    requires forall i :: 0 <= i < |sessions| ==> lo <= SessionDuration(sessions[i]) <= hi
    ensures lo <= AverageSessionDuration(sessions) <= hi
  {
    var ds := SessionDurations(sessions);
    assert AllBetween(ds, lo, hi);
    MeanBetween(ds, lo, hi);
  }

  /** Corrected: every session has a duration, so any population has an average. */
  function AverageSessionDurationGuarded(sessions: seq<Session>): (avg: nat)
    ensures |sessions| == 0 ==> avg == 0
    ensures |sessions| > 0 ==>
      var ds := seq(|sessions|, i requires 0 <= i < |sessions| => SessionDurationGuarded(sessions[i]));
      avg * |sessions| <= Sum(ds) < (avg + 1) * |sessions|
  {
    if |sessions| == 0 then 0
    else
      var ds := seq(|sessions|, i requires 0 <= i < |sessions| => SessionDurationGuarded(sessions[i]));
      assert AllBetween(ds, 0, U64_MODULUS - 1);
      MeanBetween(ds, 0, U64_MODULUS - 1);
      Mean(ds)
  }

  /** Where the code as written has an average, the corrected one has the same. */
  lemma GuardedAverageAgrees(sessions: seq<Session>)
    requires NoSingleReport(sessions)
    ensures AverageSessionDurationGuarded(sessions) == AverageSessionDuration(sessions)
  {
    var ds := seq(|sessions|, i requires 0 <= i < |sessions| => SessionDurationGuarded(sessions[i]));
    forall i | 0 <= i < |sessions|
      ensures ds[i] == SessionDurations(sessions)[i]
    {
      GuardedAgrees(sessions[i]);
    }
    assert ds == SessionDurations(sessions);
  }
}

=== FILE: frequency.dfy ===
/**
 * `TagGroupFrequency` (src/db/steps_analytics.rs): how many steps of one tag
 * group were seen, with a running average of their durations kept in whole
 * milliseconds. `new` starts from one step and `merge` folds in one more.
 */
module Frequency {
  import opened Wrappers
  import opened Types
  import opened Means
  import opened Analysis

  /** A tag group, the number of steps folded in, and their running average duration (ms). */
  datatype TagGroupFrequency = TagGroupFrequency(tagGroup: TagGroup, count: nat, averageDuration: nat)

  /** `TagGroupFrequency::new`: one step seen, whose duration is the average. */
  function NewFrequency(st: Step): (f: TagGroupFrequency)
    ensures f.tagGroup == st.tagGroup && f.count == 1
    ensures f.averageDuration * f.count == st.duration
  {
    TagGroupFrequency(st.tagGroup, 1, st.duration)
  }

  /**
   * `TagGroupFrequency::merge`: the previous total (average times count) plus
   * the new duration, divided by the new count and rounded down. The step's
   * tag group is not compared with the frequency's own.
   */
  function Merge(f: TagGroupFrequency, st: Step): (g: TagGroupFrequency)
    ensures g.tagGroup == f.tagGroup && g.count == f.count + 1
    ensures g.averageDuration * g.count <= f.averageDuration * f.count + st.duration
      < (g.averageDuration + 1) * g.count
  {
    var total := f.averageDuration * f.count + st.duration;
    TagGroupFrequency(f.tagGroup, f.count + 1, total / (f.count + 1))
  }

  /** Merging a duration into an average that both lie in `[lo, hi]` stays in `[lo, hi]`. */
  lemma MergeBetween(f: TagGroupFrequency, st: Step, lo: int, hi: int)
    requires lo <= f.averageDuration <= hi
    requires lo <= st.duration <= hi
    ensures lo <= Merge(f, st).averageDuration <= hi
  {
    var c, a, d := f.count, f.averageDuration, st.duration;
    MulMono(lo, a, c);
    MulMono(a, hi, c);
    assert lo * (c + 1) == lo * c + lo;
    assert hi * (c + 1) == hi * c + hi;
    FloorBetween(a * c + d, c + 1, Merge(f, st).averageDuration, lo, hi);
  }

  /**
   * `new` on the first step, then `merge` with each further step in order;
   * nothing when there is no step.
   */
  function Accumulate(steps: seq<Step>): (r: Option<TagGroupFrequency>)
    ensures r.Some? <==> |steps| > 0
    ensures r.Some? ==> r.value.count == |steps| && r.value.tagGroup == steps[0].tagGroup
  {
    if |steps| == 0 then None
    else if |steps| == 1 then Some(NewFrequency(steps[0]))
    else Some(Merge(Accumulate(steps[..|steps| - 1]).value, steps[|steps| - 1]))
  }

  /** The running average stays between the shortest and the longest duration folded in. */
  lemma {:induction false} AccumulateBetween(steps: seq<Step>, lo: int, hi: int)
    requires |steps| > 0
    requires AllBetween(StepDurations(steps), lo, hi)
    ensures lo <= Accumulate(steps).value.averageDuration <= hi
  {
    if |steps| == 1 {
      assert StepDurations(steps)[0] == steps[0].duration;
    } else {
      var init := steps[..|steps| - 1];
      assert forall i :: 0 <= i < |init| ==> StepDurations(init)[i] == StepDurations(steps)[i];
      AccumulateBetween(init, lo, hi);
      assert StepDurations(steps)[|steps| - 1] == steps[|steps| - 1].duration;
      MergeBetween(Accumulate(init).value, steps[|steps| - 1], lo, hi);
    }
  }

  /**
   * Every merge rounds down, so the running average times the count never
   * exceeds the true total of the durations folded in.
   */
  lemma {:induction false} AccumulateBelowTotal(steps: seq<Step>)
    requires |steps| > 0
    ensures Accumulate(steps).value.averageDuration * |steps| <= Sum(StepDurations(steps))
  {
    if |steps| == 1 {
      assert StepDurations(steps) == [steps[0].duration];
      assert Sum(StepDurations(steps)) == Sum([]) + steps[0].duration;
    } else {
      var init := steps[..|steps| - 1];
      var last := steps[|steps| - 1];
      AccumulateBelowTotal(init);
      assert init + [last] == steps;
      DurationSumExtend(init, last);
    }
  }

  /**
   * The running average can fall below the floor of the true mean: durations
   * 0, 1 and 2 ms give an average of 0 ms where the mean is 1 ms.
   */
  lemma RunningAverageDrifts()
    ensures var g := TagGroup(0, ["A"]);
      var steps := [Step(0, g, 0), Step(0, g, 1), Step(0, g, 2)];
      Accumulate(steps).value.averageDuration == 0 && Mean(StepDurations(steps)) == 1
  {
    var g := TagGroup(0, ["A"]);
    var steps := [Step(0, g, 0), Step(0, g, 1), Step(0, g, 2)];
    assert steps[..2] == [Step(0, g, 0), Step(0, g, 1)];
    assert steps[..2][..1] == [Step(0, g, 0)];
    assert Accumulate(steps[..2]).value.averageDuration == 0;
    var ds := StepDurations(steps);
    assert ds == [0, 1, 2];
    assert ds[..2] == [0, 1] && ds[..2][..1] == [0] && ds[..2][..1][..0] == [];
    assert Sum([0]) == 0;
    assert Sum([0, 1]) == 1;
    assert Sum(ds) == 3;
  }
}

=== FILE: grouping.dfy ===
/**
 * `Session::into_grouped_session`: a session's reports are labelled with the
 * id of their first matching tag group, split into maximal runs of equal id,
 * and every run after the first becomes a funnel step whose duration is the
 * time between the last report of the previous run and its own last report.
 */
module Grouping {
  import opened Types
  import opened Matching
  import opened Runs
  import opened Means

  /** `i64::abs` on an unbounded integer. */
  function Abs(x: int): (r: nat)
    ensures r == x || r == -x
  {
    if x < 0 then -x else x
  }

  /** The session's runs of reports (`group_reports`). */
  function ReportRuns(s: Session, groups: seq<TagGroup>): seq<seq<Report>> {
    GroupByIds(GroupIds(s.reports, groups), s.reports)
  }

  /** Where each run of the session closes. */
  function Ends(s: Session, groups: seq<TagGroup>): seq<int> {
    RunEnds(GroupIds(s.reports, groups), |s.reports|)
  }

  /** The time of each run's last report (`timestamps`); empty runs would give 0. */
  function LastTimes(runs: seq<seq<Report>>): (ts: seq<int>)
    ensures |ts| == |runs|
  {
    seq(|runs|, k requires 0 <= k < |runs| =>
      if |runs[k]| == 0 then 0 else runs[k][|runs[k]| - 1].timeMs)
  }

  /** `durations`: each timestamp minus the one before it, the first minus 0. */
  function Differences(ts: seq<int>): (d: seq<int>)
    ensures |d| == |ts|
  {
    seq(|ts|, i requires 0 <= i < |ts| => ts[i] - if i == 0 then 0 else ts[i - 1])
  }

  /** The loop that builds `durations`, carrying `last_timestamp` from 0. */
  method DurationsLoop(ts: seq<int>) returns (d: seq<int>)
    ensures d == Differences(ts)
  {
    var last := 0;
    d := [];
    for i := 0 to |ts|
      invariant |d| == i
      invariant forall j :: 0 <= j < i ==> d[j] == Differences(ts)[j]
      invariant last == if i == 0 then 0 else ts[i - 1]
    {
      d := d + [ts[i] - last];
      last := ts[i];
    }
  }

  /** Differences are undone by running sums: the first `k + 1` of them add up to `ts[k]`. */
  lemma {:induction false} DifferencesTelescope(ts: seq<int>, k: nat)
    requires k < |ts|
    ensures Sum(Differences(ts)[..k + 1]) == ts[k]
  {
    var d := Differences(ts);
    assert d[..k + 1][..k] == d[..k];
    if k > 0 {
      DifferencesTelescope(ts, k - 1);
    } else {
      assert d[..0] == [];
    }
  }

  /**
   * The steps of `into_grouped_session` over given runs: one per run after
   * the first, numbered from 0, with the tag group found at position
   * `stepIds[idx + 1]` and the absolute duration of run `idx + 1`.
   */
  function BuildSteps(runs: seq<seq<Report>>, stepIds: seq<int>, groups: seq<TagGroup>): (steps: seq<Step>)
    requires 0 < |runs| <= |stepIds|
    requires forall i :: 1 <= i < |runs| ==> 0 <= stepIds[i] < |groups|
    ensures |steps| == |runs| - 1
    ensures forall i :: 0 <= i < |steps| ==> steps[i].stepNumber == i
  {
    var d := Differences(LastTimes(runs));
    seq(|runs| - 1, i requires 0 <= i < |runs| - 1 => Step(i, groups[stepIds[i + 1]], Abs(d[i + 1])))
  }

  /** Step `i` lasts the absolute difference of the timestamps of runs `i` and `i + 1`. */
  lemma BuildStepDuration(runs: seq<seq<Report>>, stepIds: seq<int>, groups: seq<TagGroup>, i: nat)
    requires 0 < |runs| <= |stepIds|
    requires forall i :: 1 <= i < |runs| ==> 0 <= stepIds[i] < |groups|
    requires i < |runs| - 1
    ensures BuildSteps(runs, stepIds, groups)[i].duration == Abs(LastTimes(runs)[i + 1] - LastTimes(runs)[i])
  {
    assert Differences(LastTimes(runs))[i + 1] == LastTimes(runs)[i + 1] - LastTimes(runs)[i];
  }

  /** The timestamp of run `k` is the time of the report at which the run closes. */
  lemma LastTimeOfRun(ids: seq<int>, reports: seq<Report>, k: nat)
    requires |ids| <= |reports|
    requires k < |GroupByIds(ids, reports)|
    ensures 0 < RunEnds(ids, |ids|)[k] <= |ids|
    ensures LastTimes(GroupByIds(ids, reports))[k] == reports[RunEnds(ids, |ids|)[k] - 1].timeMs
  {
    var runs := GroupByIds(ids, reports);
    var ends := RunEnds(ids, |ids|);
    RunAt(ids, reports, k);
    var start, end := RunStart(ends, k), ends[k];
    var run := runs[k];
    assert run == reports[start..end];
    assert |run| == end - start > 0;
    assert run[|run| - 1] == reports[end - 1];
    assert LastTimes(runs)[k] == run[|run| - 1].timeMs;
  }

  /**
   * Over the runs of `reports` by `ids`, step `i` lasts as long as the gap
   * between the last report of run `i` and the last report of run `i + 1`,
   * in absolute value.
   */
  lemma StepGapAt(reports: seq<Report>, ids: seq<int>, stepIds: seq<int>, groups: seq<TagGroup>, i: nat)
    requires 0 < |ids| == |reports|
    requires |GroupByIds(ids, reports)| <= |stepIds|
    requires forall i :: 1 <= i < |GroupByIds(ids, reports)| ==> 0 <= stepIds[i] < |groups|
    requires i < |GroupByIds(ids, reports)| - 1
    ensures BuildSteps(GroupByIds(ids, reports), stepIds, groups)[i].duration ==
      Abs(reports[RunEnds(ids, |ids|)[i + 1] - 1].timeMs - reports[RunEnds(ids, |ids|)[i] - 1].timeMs)
  {
    BuildStepDuration(GroupByIds(ids, reports), stepIds, groups, i);
    LastTimeOfRun(ids, reports, i);
    LastTimeOfRun(ids, reports, i + 1);
  }

  /** `StepGapAt` for every step. */
  lemma BuildStepsGaps(reports: seq<Report>, ids: seq<int>, stepIds: seq<int>, groups: seq<TagGroup>)
    requires 0 < |ids| == |reports|
    requires |GroupByIds(ids, reports)| <= |stepIds|
    requires forall i :: 1 <= i < |GroupByIds(ids, reports)| ==> 0 <= stepIds[i] < |groups|
    ensures forall i {:trigger BuildSteps(GroupByIds(ids, reports), stepIds, groups)[i]} ::
      0 <= i < |GroupByIds(ids, reports)| - 1 ==>
        BuildSteps(GroupByIds(ids, reports), stepIds, groups)[i].duration ==
          Abs(reports[RunEnds(ids, |ids|)[i + 1] - 1].timeMs - reports[RunEnds(ids, |ids|)[i] - 1].timeMs)
  {
    var steps := BuildSteps(GroupByIds(ids, reports), stepIds, groups);
    forall i {:trigger steps[i]} | 0 <= i < |GroupByIds(ids, reports)| - 1
      ensures steps[i].duration ==
        Abs(reports[RunEnds(ids, |ids|)[i + 1] - 1].timeMs - reports[RunEnds(ids, |ids|)[i] - 1].timeMs)
    {
      StepGapAt(reports, ids, stepIds, groups, i);
    }
  }

  /**
   * The lookup `tag_groups[tag_group_ids[idx + 1]]` is defined for every
   * emitted step: the id of report `idx + 1` is a position in `groups`.
   */
  predicate StepLookupsInRange(reports: seq<Report>, groups: seq<TagGroup>) {
    var ids := GroupIds(reports, groups);
    forall i :: 1 <= i < |GroupByIds(ids, reports)| ==> 0 <= ids[i] < |groups|
  }

  /** As written: step `idx` takes the group at the id of REPORT `idx + 1`. */
  function IntoGroupedSession(s: Session, groups: seq<TagGroup>): (gs: GroupedSession)
    requires |s.reports| > 0
    requires StepLookupsInRange(s.reports, groups)
    ensures |gs.steps| == |ReportRuns(s, groups)| - 1
    ensures forall i :: 0 <= i < |gs.steps| ==> gs.steps[i].stepNumber == i
  {
    var ids := GroupIds(s.reports, groups);
    GroupedSession(BuildSteps(GroupByIds(ids, s.reports), ids, groups))
  }

  /** The id of every run after the first is a position in `groups`. */
  predicate RunLookupsInRange(reports: seq<Report>, groups: seq<TagGroup>) {
    var rids := RunIds(GroupIds(reports, groups));
    forall k :: 1 <= k < |rids| ==> 0 <= rids[k] < |groups|
  }

  /** Corrected: step `idx` takes the group at the id of RUN `idx + 1`. */
  function IntoGroupedSessionByRun(s: Session, groups: seq<TagGroup>): (gs: GroupedSession)
    requires |s.reports| > 0
    requires RunLookupsInRange(s.reports, groups)
    ensures |gs.steps| == |ReportRuns(s, groups)| - 1
    ensures forall i :: 0 <= i < |gs.steps| ==> gs.steps[i].stepNumber == i
  {
    var ids := GroupIds(s.reports, groups);
    GroupedSession(BuildSteps(GroupByIds(ids, s.reports), RunIds(ids), groups))
  }

  /** The numbering the web client uses: the group at position `i` has id `i`. */
  predicate FrontendNumbering(groups: seq<TagGroup>) {
    forall i :: 0 <= i < |groups| ==> groups[i].id == i
  }

  /**
   * Under the client's numbering every matched id, including the "no match"
   * id 0, is a position in a non-empty group list, so both lookups are safe.
   * An empty group list maps every report to 0, so there is at most one run
   * and no lookup at all.
   */
  lemma FrontendIdsInRange(reports: seq<Report>, groups: seq<TagGroup>)
    requires FrontendNumbering(groups)
    ensures StepLookupsInRange(reports, groups)
    ensures RunLookupsInRange(reports, groups)
  {
    var ids := GroupIds(reports, groups);
    if |groups| == 0 {
      assert forall p :: 0 <= p < |ids| ==> ids[p] == 0 by {
        forall p | 0 <= p < |ids|
          ensures ids[p] == 0
        {
          assert IsFirstMatchId(groups, reports[p].tags, ids[p]);
        }
      }
      NoChangeOneRun(ids, |ids|);
    } else {
      assert forall p :: 0 <= p < |ids| ==> 0 <= ids[p] < |groups| by {
        forall p | 0 <= p < |ids|
          ensures 0 <= ids[p] < |groups|
        {
          assert IsFirstMatchId(groups, reports[p].tags, ids[p]);
        }
      }
    }
  }

  /**
   * Step `i` of a grouped session lasts as long as the gap between the last
   * report of run `i` and the last report of run `i + 1`, in absolute value.
   */
  lemma StepDurationsAreGaps(s: Session, groups: seq<TagGroup>)
    requires |s.reports| > 0
    requires StepLookupsInRange(s.reports, groups)
    ensures forall i {:trigger IntoGroupedSession(s, groups).steps[i]} ::
      0 <= i < |IntoGroupedSession(s, groups).steps| ==>
        IntoGroupedSession(s, groups).steps[i].duration ==
          Abs(s.reports[Ends(s, groups)[i + 1] - 1].timeMs - s.reports[Ends(s, groups)[i] - 1].timeMs)
  {
    var ids := GroupIds(s.reports, groups);
    assert forall i :: 1 <= i < |GroupByIds(ids, s.reports)| ==> 0 <= ids[i] < |groups|;
    BuildStepsGaps(s.reports, ids, ids, groups);
    assert IntoGroupedSession(s, groups).steps == BuildSteps(GroupByIds(ids, s.reports), ids, groups);
  }

  /** The corrected steps have the same durations. */
  lemma ByRunStepDurationsAreGaps(s: Session, groups: seq<TagGroup>)
    requires |s.reports| > 0
    requires RunLookupsInRange(s.reports, groups)
    ensures forall i {:trigger IntoGroupedSessionByRun(s, groups).steps[i]} ::
      0 <= i < |IntoGroupedSessionByRun(s, groups).steps| ==>
        IntoGroupedSessionByRun(s, groups).steps[i].duration ==
          Abs(s.reports[Ends(s, groups)[i + 1] - 1].timeMs - s.reports[Ends(s, groups)[i] - 1].timeMs)
  {
    var ids := GroupIds(s.reports, groups);
    var rids := RunIds(ids);
    assert |GroupByIds(ids, s.reports)| == |rids|;
    assert forall k :: 1 <= k < |rids| ==> 0 <= rids[k] < |groups|;
    BuildStepsGaps(s.reports, ids, rids, groups);
    assert IntoGroupedSessionByRun(s, groups).steps == BuildSteps(GroupByIds(ids, s.reports), rids, groups);
  }

  /** Every position in `[lo, hi)` was given an id whose position in `groups` holds `g`. */
  predicate AllMatchedTo(ids: seq<int>, lo: int, hi: int, g: TagGroup, groups: seq<TagGroup>) {
    forall p :: lo <= p < hi && 0 <= p < |ids| ==> 0 <= ids[p] < |groups| && groups[ids[p]] == g
  }

  /**
   * Step `i` carries `groups[id]` for the id every position of run `i + 1`
   * was given, where the runs close at `ends`.
   */
  predicate StepsLabelRuns(steps: seq<Step>, ids: seq<int>, ends: seq<int>, groups: seq<TagGroup>) {
    forall i {:trigger steps[i]} :: 0 <= i < |steps| && i + 1 < |ends| ==>
      AllMatchedTo(ids, ends[i], ends[i + 1], steps[i].tagGroup, groups)
  }

  /** Corrected step `i` carries `groups[id]` for the id shared by every report of run `i + 1`. */
  lemma ByRunStepMatchesAt(reports: seq<Report>, ids: seq<int>, groups: seq<TagGroup>, i: nat)
    requires 0 < |ids| == |reports|
    requires forall k :: 1 <= k < |RunIds(ids)| ==> 0 <= RunIds(ids)[k] < |groups|
    requires i < |GroupByIds(ids, reports)| - 1
    ensures AllMatchedTo(ids, RunEnds(ids, |ids|)[i], RunEnds(ids, |ids|)[i + 1],
      BuildSteps(GroupByIds(ids, reports), RunIds(ids), groups)[i].tagGroup, groups)
  {
    var ends := RunEnds(ids, |ids|);
    assert RunIds(ids)[i + 1] == ids[ends[i + 1] - 1];
    forall p | ends[i] <= p < ends[i + 1] && 0 <= p < |ids|
      ensures 0 <= ids[p] < |groups| && groups[ids[p]] == groups[RunIds(ids)[i + 1]]
    {
      RunHasOneId(ids, i + 1, p);
    }
  }

  /** `ByRunStepMatchesAt` for every step. */
  lemma BuildStepsLabelRuns(reports: seq<Report>, ids: seq<int>, groups: seq<TagGroup>)
    requires 0 < |ids| == |reports|
    requires forall k :: 1 <= k < |RunIds(ids)| ==> 0 <= RunIds(ids)[k] < |groups|
    ensures StepsLabelRuns(BuildSteps(GroupByIds(ids, reports), RunIds(ids), groups), ids, RunEnds(ids, |ids|), groups)
  {
    var steps := BuildSteps(GroupByIds(ids, reports), RunIds(ids), groups);
    forall i {:trigger steps[i]} | 0 <= i < |steps| && i + 1 < |RunEnds(ids, |ids|)|
      ensures AllMatchedTo(ids, RunEnds(ids, |ids|)[i], RunEnds(ids, |ids|)[i + 1], steps[i].tagGroup, groups)
    {
      ByRunStepMatchesAt(reports, ids, groups, i);
    }
  }

  /**
   * Corrected step `i` carries `groups[id]` for the id every report of run
   * `i + 1` was given.
   */
  lemma ByRunStepsMatchTheirRuns(s: Session, groups: seq<TagGroup>)
    requires |s.reports| > 0
    requires RunLookupsInRange(s.reports, groups)
    ensures StepsLabelRuns(IntoGroupedSessionByRun(s, groups).steps, GroupIds(s.reports, groups), Ends(s, groups), groups)
  {
    var ids := GroupIds(s.reports, groups);
    BuildStepsLabelRuns(s.reports, ids, groups);
    assert IntoGroupedSessionByRun(s, groups).steps == BuildSteps(GroupByIds(ids, s.reports), RunIds(ids), groups);
  }

  /**
   * Under the client's numbering, corrected step `i` carries the group that
   * `find` picks for any report of run `i + 1`; a run whose reports match no
   * group gets the group at position 0, the "no match" id.
   */
  lemma ByRunStepFoundGroup(s: Session, groups: seq<TagGroup>, i: nat, p: nat)
    requires |s.reports| > 0
    requires FrontendNumbering(groups)
    requires RunLookupsInRange(s.reports, groups)
    requires i < |IntoGroupedSessionByRun(s, groups).steps|
    requires Ends(s, groups)[i] <= p < Ends(s, groups)[i + 1]
    ensures FirstMatchIndex(groups, s.reports[p].tags).Some? ==>
      IntoGroupedSessionByRun(s, groups).steps[i].tagGroup == groups[FirstMatchIndex(groups, s.reports[p].tags).value]
    ensures FirstMatchIndex(groups, s.reports[p].tags).None? ==>
      0 < |groups| && IntoGroupedSessionByRun(s, groups).steps[i].tagGroup == groups[0]
  {
    var ids := GroupIds(s.reports, groups);
    FrontendIdsInRange(s.reports, groups);
    ByRunStepsMatchTheirRuns(s, groups);
    RunEndsAtChanges(ids, |ids|);
    assert IsFirstMatchId(groups, s.reports[p].tags, ids[p]);
  }

  /**
   * When no two adjacent reports are matched to the same id, every run is a
   * single report, report and run indices coincide, and the code as written
   * agrees with the corrected one.
   */
  lemma SingletonRunsAgree(s: Session, groups: seq<TagGroup>)
    requires |s.reports| > 0
    requires StepLookupsInRange(s.reports, groups)
    requires forall i :: 0 < i < |s.reports| ==> ChangesAt(GroupIds(s.reports, groups), i)
    ensures RunLookupsInRange(s.reports, groups)
    ensures IntoGroupedSession(s, groups) == IntoGroupedSessionByRun(s, groups)
  {
    AllChangesRunIds(GroupIds(s.reports, groups));
  }

  /** The matched ids of the mislabelling example below. */
  lemma ExampleIds(reports: seq<Report>, groups: seq<TagGroup>)
    requires reports == [Report(0, ["A"]), Report(100, ["A"]), Report(150, ["B"])]
    requires groups == [TagGroup(0, ["A"]), TagGroup(1, ["B"])]
    ensures GroupIds(reports, groups) == [0, 0, 1]
  {
    assert "A" != "B";
    assert ContainsAny(groups[0], ["A"]);
    assert !ContainsAny(groups[0], ["B"]);
    assert ContainsAny(groups[1], ["B"]);
    assert MatchedId(groups, ["A"]) == 0;
    assert MatchedId(groups, ["B"]) == 1;
  }

  /** The runs of the mislabelling example close after reports 1 and 2. */
  lemma ExampleEnds()
    ensures RunEnds([0, 0, 1], 3) == [2, 3]
  {
    var ids := [0, 0, 1];
    assert RunEnds(ids, 1) == CloseRun([], ids, 1) == [1];
    assert RunEnds(ids, 2) == CloseRun([1], ids, 2) == [2];
    assert RunEnds(ids, 3) == CloseRun([2], ids, 3) == [2, 3];
  }

  /** The runs of the mislabelling example: reports 0 and 1, then report 2. */
  lemma ExampleRuns(reports: seq<Report>)
    requires |reports| == 3
    ensures GroupByIds([0, 0, 1], reports) == [reports[..2], reports[2..3]]
  {
    ExampleEnds();
    assert Ascending([3], 2, 3);
    var tail := Slices(reports, 2, [3]);
    assert tail == [reports[2..3]];
    assert Slices(reports, 0, [2, 3]) == [reports[0..2]] + tail;
  }

  /** The one step of the example, labelled with the group at `stepIds[1]`. */
  lemma ExampleStep(reports: seq<Report>, stepIds: seq<int>, groups: seq<TagGroup>)
    requires |reports| == 3 && reports[1].timeMs == 100 && reports[2].timeMs == 150
    requires |stepIds| >= 2 && 0 <= stepIds[1] < |groups|
    ensures BuildSteps([reports[..2], reports[2..3]], stepIds, groups) == [Step(0, groups[stepIds[1]], 50)]
  {
    var runs := [reports[..2], reports[2..3]];
    assert LastTimes(runs)[0] == 100 && LastTimes(runs)[1] == 150;
    assert Differences(LastTimes(runs))[1] == 50;
    var steps := BuildSteps(runs, stepIds, groups);
    assert |steps| == 1;
    assert steps[0] == Step(0, groups[stepIds[1]], Abs(Differences(LastTimes(runs))[1]));
  }

  /**
   * Three reports whose ids are 0, 0, 1 and whose last two come at 100 and
   * 150 ms: one step of 50 ms, labelled with group 0 when read at report 1
   * and with group 1 when read at run 1.
   */
  lemma ExampleStepsFromIds(reports: seq<Report>, ids: seq<int>, groups: seq<TagGroup>)
    requires |reports| == 3 && reports[1].timeMs == 100 && reports[2].timeMs == 150
    requires |groups| == 2
    requires ids == [0, 0, 1]
    ensures forall i :: 1 <= i < |GroupByIds(ids, reports)| ==> 0 <= ids[i] < |groups|
    ensures BuildSteps(GroupByIds(ids, reports), ids, groups) == [Step(0, groups[0], 50)]
    ensures forall k :: 1 <= k < |RunIds(ids)| ==> 0 <= RunIds(ids)[k] < |groups|
    ensures |RunIds(ids)| == |GroupByIds(ids, reports)|
    ensures BuildSteps(GroupByIds(ids, reports), RunIds(ids), groups) == [Step(0, groups[1], 50)]
  {
    ExampleRuns(reports);
    ExampleEnds();
    assert RunIds(ids) == [0, 1];
    ExampleStep(reports, ids, groups);
    ExampleStep(reports, [0, 1], groups);
  }

  /** The example session's steps as written: one step of 50 ms labelled with group 0. */
  lemma ExampleSessionSteps(s: Session, groups: seq<TagGroup>)
    requires |s.reports| == 3 && s.reports[1].timeMs == 100 && s.reports[2].timeMs == 150
    requires |groups| == 2
    requires GroupIds(s.reports, groups) == [0, 0, 1]
    ensures StepLookupsInRange(s.reports, groups)
    ensures IntoGroupedSession(s, groups).steps == [Step(0, groups[0], 50)]
  {
    var ids := GroupIds(s.reports, groups);
    ExampleStepsFromIds(s.reports, ids, groups);
    assert IntoGroupedSession(s, groups).steps == BuildSteps(GroupByIds(ids, s.reports), ids, groups);
  }

  /** The same session read by run: one step of 50 ms labelled with group 1. */
  lemma ExampleSessionStepsByRun(s: Session, groups: seq<TagGroup>)
    requires |s.reports| == 3 && s.reports[1].timeMs == 100 && s.reports[2].timeMs == 150
    requires |groups| == 2
    requires GroupIds(s.reports, groups) == [0, 0, 1]
    ensures RunLookupsInRange(s.reports, groups)
    ensures IntoGroupedSessionByRun(s, groups).steps == [Step(0, groups[1], 50)]
  {
    var ids := GroupIds(s.reports, groups);
    ExampleStepsFromIds(s.reports, ids, groups);
    assert IntoGroupedSessionByRun(s, groups).steps == BuildSteps(GroupByIds(ids, s.reports), RunIds(ids), groups);
  }

  /**
   * Reports at 0 and 100 tagged `A` and one at 150 tagged `B`, with groups
   * numbered as the web client numbers them: the single step belongs to the
   * `B` run, yet the code as written labels it with group `A`, read at
   * report 1 instead of run 1. The corrected version labels it `B`.
   */
  lemma ReportIndexMislabelsStep()
    ensures
      var s := Session(0, [Report(0, ["A"]), Report(100, ["A"]), Report(150, ["B"])]);
      var groups := [TagGroup(0, ["A"]), TagGroup(1, ["B"])];
      && StepLookupsInRange(s.reports, groups)
      && RunLookupsInRange(s.reports, groups)
      && IntoGroupedSession(s, groups).steps == [Step(0, groups[0], 50)]
      && !ContainsAny(groups[0], s.reports[2].tags)
      && IntoGroupedSessionByRun(s, groups).steps == [Step(0, groups[1], 50)]
  {
    var s := Session(0, [Report(0, ["A"]), Report(100, ["A"]), Report(150, ["B"])]);
    var groups := [TagGroup(0, ["A"]), TagGroup(1, ["B"])];
    ExampleIds(s.reports, groups);
    ExampleSessionSteps(s, groups);
    ExampleSessionStepsByRun(s, groups);
    assert !ContainsAny(groups[0], ["B"]) by {
      assert "A" != "B";
    }
  }

  /** Report times never decrease along the session. */
  predicate Chronological(reports: seq<Report>) {
    forall i, j :: 0 <= i <= j < |reports| ==> reports[i].timeMs <= reports[j].timeMs
  }

  /** The total of the step durations. */
  function TotalDuration(steps: seq<Step>): nat {
    if |steps| == 0 then 0 else TotalDuration(steps[..|steps| - 1]) + steps[|steps| - 1].duration
  }

  /** Durations that are gaps between successive boundaries add up to the whole span. */
  lemma {:induction false} Telescope(steps: seq<Step>, b: seq<int>, m: nat)
    requires |b| == |steps| + 1
    requires forall i {:trigger steps[i]} :: 0 <= i < |steps| ==> steps[i].duration == b[i + 1] - b[i]
    requires m <= |steps|
    ensures TotalDuration(steps[..m]) == b[m] - b[0]
  {
    if m > 0 {
      assert steps[..m][..m - 1] == steps[..m - 1];
      assert steps[m - 1].duration == b[m] - b[m - 1];
      Telescope(steps, b, m - 1);
    }
  }

  /** Over chronological reports, step `i` lasts exactly the time between its two boundaries. */
  lemma ChronologicalGapAt(reports: seq<Report>, ids: seq<int>, stepIds: seq<int>, groups: seq<TagGroup>, i: nat)
    requires 0 < |ids| == |reports|
    requires |GroupByIds(ids, reports)| <= |stepIds|
    requires forall i :: 1 <= i < |GroupByIds(ids, reports)| ==> 0 <= stepIds[i] < |groups|
    requires Chronological(reports)
    requires i < |GroupByIds(ids, reports)| - 1
    ensures BuildSteps(GroupByIds(ids, reports), stepIds, groups)[i].duration ==
      reports[RunEnds(ids, |ids|)[i + 1] - 1].timeMs - reports[RunEnds(ids, |ids|)[i] - 1].timeMs
  {
    StepGapAt(reports, ids, stepIds, groups, i);
    RunEndsAtChanges(ids, |ids|);
    var ends := RunEnds(ids, |ids|);
    assert ends[i] < ends[i + 1];
    assert reports[ends[i] - 1].timeMs <= reports[ends[i + 1] - 1].timeMs;
  }

  /** `Telescope` over the runs of `reports` by `ids`. */
  lemma BuildStepsSpan(reports: seq<Report>, ids: seq<int>, stepIds: seq<int>, groups: seq<TagGroup>)
    requires 0 < |ids| == |reports|
    requires |GroupByIds(ids, reports)| <= |stepIds|
    requires forall i :: 1 <= i < |GroupByIds(ids, reports)| ==> 0 <= stepIds[i] < |groups|
    requires Chronological(reports)
    ensures TotalDuration(BuildSteps(GroupByIds(ids, reports), stepIds, groups)) ==
      reports[|reports| - 1].timeMs - reports[RunEnds(ids, |ids|)[0] - 1].timeMs
  {
    var steps := BuildSteps(GroupByIds(ids, reports), stepIds, groups);
    var ends := RunEnds(ids, |ids|);
    var b := seq(|ends|, k requires 0 <= k < |ends| => reports[ends[k] - 1].timeMs);
    forall i {:trigger steps[i]} | 0 <= i < |steps|
      ensures steps[i].duration == b[i + 1] - b[i]
    {
      ChronologicalGapAt(reports, ids, stepIds, groups, i);
    }
    Telescope(steps, b, |steps|);
    assert steps[..|steps|] == steps;
  }

  /**
   * For a chronological session the step durations add up to the time from
   * the end of the first stage to the last report.
   */
  lemma StepDurationsSumToSpan(s: Session, groups: seq<TagGroup>)
    requires |s.reports| > 0
    requires StepLookupsInRange(s.reports, groups)
    requires Chronological(s.reports)
    ensures TotalDuration(IntoGroupedSession(s, groups).steps) ==
      s.reports[|s.reports| - 1].timeMs - s.reports[Ends(s, groups)[0] - 1].timeMs
  {
    var ids := GroupIds(s.reports, groups);
    assert forall i :: 1 <= i < |GroupByIds(ids, s.reports)| ==> 0 <= ids[i] < |groups|;
    BuildStepsSpan(s.reports, ids, ids, groups);
    assert IntoGroupedSession(s, groups).steps == BuildSteps(GroupByIds(ids, s.reports), ids, groups);
  }
}

=== FILE: matching.dfy ===
/** Deciding which tag group a report belongs to. */
module Matching {
  import opened Wrappers
  import opened Types

  /** The two tag lists have a tag in common. */
  ghost predicate ShareTag(a: seq<string>, b: seq<string>) {
    exists t :: t in a && t in b
  }

  /** Walks `names` and, for each, scans `tags` for an equal tag. */
  function AnyNameIn(names: seq<string>, tags: seq<string>): (r: bool)
    ensures r <==> ShareTag(names, tags)
  {
    if |names| == 0 then false
    else if names[0] in tags then true
    else
      var rest := AnyNameIn(names[1..], tags);
      assert forall t :: t in names ==> t == names[0] || t in names[1..];
      rest
  }

  /** `TagGroup::contains_any`: the group and the report share a tag. */
  function ContainsAny(g: TagGroup, tags: seq<string>): (r: bool)
    ensures r <==> exists t :: t in g.tagsNames && t in tags
    ensures |tags| == 0 ==> !r
  {
    AnyNameIn(g.tagsNames, tags)
  }

  /** Position of the first group in list order that matches `tags`, if any. */
  function FirstMatchIndex(groups: seq<TagGroup>, tags: seq<string>): (r: Option<nat>)
    ensures r.Some? ==> r.value < |groups| && ContainsAny(groups[r.value], tags)
    ensures r.Some? ==> forall j :: 0 <= j < r.value ==> !ContainsAny(groups[j], tags)
    ensures r.None? <==> forall j :: 0 <= j < |groups| ==> !ContainsAny(groups[j], tags)
  {
    if |groups| == 0 then None
    else if ContainsAny(groups[0], tags) then Some(0)
    else
      match FirstMatchIndex(groups[1..], tags)
      case None =>
        assert forall j :: 1 <= j < |groups| ==> groups[j] == groups[1..][j - 1];
        None
      case Some(k) =>
        assert forall j :: 1 <= j < k + 1 ==> groups[j] == groups[1..][j - 1];
        Some(k + 1)
  }

  /**
   * `id` is the one `group_ids` assigns to a report with these tags: the id of
   * the first matching group, or the sentinel 0 when no group matches.
   */
  ghost predicate IsFirstMatchId(groups: seq<TagGroup>, tags: seq<string>, id: int) {
    || ((forall j :: 0 <= j < |groups| ==> !ContainsAny(groups[j], tags)) && id == 0)
    || (exists k :: 0 <= k < |groups| && ContainsAny(groups[k], tags) && id == groups[k].id
                    && forall j :: 0 <= j < k ==> !ContainsAny(groups[j], tags))
  }

  /** The id `group_ids` gives one report (`find(...).map_or(0, |g| g.id)`). */
  function MatchedId(groups: seq<TagGroup>, tags: seq<string>): (id: int)
    ensures IsFirstMatchId(groups, tags, id)
    ensures |tags| == 0 ==> id == 0
  {
    match FirstMatchIndex(groups, tags)
    case None => 0
    case Some(k) => groups[k].id
  }

  /** `Session::group_ids`: one matched id per report, in report order. */
  function GroupIds(reports: seq<Report>, groups: seq<TagGroup>): (ids: seq<int>)
    ensures |ids| == |reports|
    ensures forall i :: 0 <= i < |reports| ==> IsFirstMatchId(groups, reports[i].tags, ids[i])
  {
    seq(|reports|, i requires 0 <= i < |reports| => MatchedId(groups, reports[i].tags))
  }

  /** Some report in the sequence matches the group (the `any` in `contains_tag_group`). */
  function AnyReportMatches(reports: seq<Report>, g: TagGroup): (r: bool)
    ensures r <==> exists i :: 0 <= i < |reports| && ContainsAny(g, reports[i].tags)
  {
    if |reports| == 0 then false
    else if ContainsAny(g, reports[0].tags) then true
    else
      var rest := AnyReportMatches(reports[1..], g);
      assert forall i :: 1 <= i < |reports| ==> reports[i] == reports[1..][i - 1];
      rest
  }

  /** `Session::contains_tag_group`. */
  function ContainsTagGroup(s: Session, g: TagGroup): (r: bool)
    ensures r <==> exists i :: 0 <= i < |s.reports| && ContainsAny(g, s.reports[i].tags)
  {
    AnyReportMatches(s.reports, g)
  }
}

=== FILE: means.dfy ===
/**
 * Sums and integer means. Every mean in the engine divides a sum of
 * non-negative millisecond counts by a positive count with unsigned integer
 * division, which is the floor of the exact quotient.
 */
module Means {

  /** The sum of a sequence, folded from the left. */
  function Sum(xs: seq<int>): int {
    if |xs| == 0 then 0 else Sum(xs[..|xs| - 1]) + xs[|xs| - 1]
  }

  /** Every element lies in `[lo, hi]`. */
  predicate AllBetween(xs: seq<int>, lo: int, hi: int) {
    forall i :: 0 <= i < |xs| ==> lo <= xs[i] <= hi
  }

  /** A sum of `n` values from `[lo, hi]` lies in `[n * lo, n * hi]`. */
  lemma {:induction false} SumBetween(xs: seq<int>, lo: int, hi: int)
    requires AllBetween(xs, lo, hi)
    ensures |xs| * lo <= Sum(xs) <= |xs| * hi
  {
    if |xs| > 0 {
      var init := xs[..|xs| - 1];
      assert AllBetween(init, lo, hi);
      SumBetween(init, lo, hi);
      assert |xs| * lo == |init| * lo + lo;
      assert |xs| * hi == |init| * hi + hi;
    }
  }

  /**
   * The integer mean, `sum / len` in unsigned division: the largest `m`
   * with `m * len <= sum`.
   */
  function Mean(xs: seq<int>): (m: int)
    requires |xs| > 0
    ensures m * |xs| <= Sum(xs) < (m + 1) * |xs|
  {
    Sum(xs) / |xs|
  }

  /** The integer mean of values in `[lo, hi]` is itself in `[lo, hi]`. */
  lemma MeanBetween(xs: seq<int>, lo: int, hi: int)
    requires |xs| > 0
    requires AllBetween(xs, lo, hi)
    ensures lo <= Mean(xs) <= hi
  {
    SumBetween(xs, lo, hi);
    FloorBetween(Sum(xs), |xs|, Mean(xs), lo, hi);
  }

  /**
   * The rounded-down quotient of a total lying in `[n * lo, n * hi]` by the
   * positive `n` lies in `[lo, hi]`.
   */
  lemma FloorBetween(total: int, n: int, m: int, lo: int, hi: int)
    requires n > 0
    requires m * n <= total < (m + 1) * n
    requires lo * n <= total <= hi * n
    ensures lo <= m <= hi
  {
    assert lo * n < (m + 1) * n;
    assert m * n < (hi + 1) * n by {
      assert (hi + 1) * n == hi * n + n;
    }
    MulLessCancel(lo, m + 1, n);
    MulLessCancel(m, hi + 1, n);
  }

  /** Multiplying both sides by the same positive count keeps a strict order. */
  lemma MulLessCancel(a: int, b: int, n: int)
    requires n > 0
    requires a * n < b * n
    ensures a < b
  {
    if a >= b {
      MulMono(b, a, n);
    }
  }

  /** Multiplication by a non-negative count is monotone. */
  lemma MulMono(a: int, b: int, n: int)
    requires a <= b
    requires n >= 0
    ensures a * n <= b * n
  {
    assert b * n == a * n + (b - a) * n;
  }
}

=== FILE: percentages.dfy ===
/**
 * `Percentage` and the arithmetic of `Session::get_percentages`: for each
 * tag group, the share of sessions having a report that matches it.
 */
module Percentages {
  import opened Wrappers
  import opened Types
  import opened Matching
  import opened Means

  /** The values of a `u32`. */
  type U32 = x: int | 0 <= x < 0x1_0000_0000

  /** A `Percentage`: a `u32` that its constructor keeps in `[0, 100]`. */
  type Percentage = p: U32 | p <= 100

  /** `Percentage::new`: refuses values above 100 and keeps the others unchanged. */
  function NewPercentage(p: U32): (r: Option<Percentage>)
    ensures r.Some? <==> p <= 100
    ensures r.Some? ==> r.value == p
  {
    if p > 100 then None else Some(p)
  }

  /** The `From` conversion: `new(p).unwrap()`, defined only where `new` succeeds. */
  function FromU32(p: U32): (r: Percentage)
    requires p <= 100
    ensures r == p
  {
    NewPercentage(p).value
  }

  /** The error `get_percentages` reports when there is nothing to divide by. */
  datatype AnalyticsError = NoSessionFound

  /** `get_sessions_with_tag_group` on an in-memory list: the sessions matching `g`, in order. */
  function SessionsWithTagGroup(sessions: seq<Session>, g: TagGroup): (r: seq<Session>)
    ensures |r| <= |sessions|
    ensures forall x :: x in r <==> x in sessions && ContainsTagGroup(x, g)
    ensures |r| == |sessions| <==> forall i :: 0 <= i < |sessions| ==> ContainsTagGroup(sessions[i], g)
    ensures |r| == 0 <==> forall i :: 0 <= i < |sessions| ==> !ContainsTagGroup(sessions[i], g)
  {
    if |sessions| == 0 then []
    else
      var rest := SessionsWithTagGroup(sessions[1..], g);
      assert forall x :: x in sessions <==> x == sessions[0] || x in sessions[1..];
      assert forall i :: 1 <= i < |sessions| ==> sessions[i] == sessions[1..][i - 1];
      if ContainsTagGroup(sessions[0], g) then [sessions[0]] + rest else rest
  }

  /**
   * The filter keeps every matching session as often as it occurs and drops
   * every other one, so its length is the number of matching sessions.
   */
  lemma {:induction false} SessionsKept(sessions: seq<Session>, g: TagGroup)
    ensures forall x :: multiset(SessionsWithTagGroup(sessions, g))[x] ==
                         (if ContainsTagGroup(x, g) then multiset(sessions)[x] else 0)
  {
    if |sessions| > 0 {
      SessionsKept(sessions[1..], g);
      assert sessions == [sessions[0]] + sessions[1..];
      assert multiset(sessions) == multiset{sessions[0]} + multiset(sessions[1..]);
    }
  }

  /**
   * `count` out of `total` as a whole percentage, rounded down. The count is
   * a filter of the total, so the `From` conversion never fails.
   */
  function PercentageOf(count: nat, total: nat): (p: Percentage)
    requires 0 < total
    requires count <= total
    ensures p * total <= count * 100 < (p + 1) * total
    ensures p == 100 <==> count == total
    ensures count == 0 ==> p == 0
  {
    FloorPercent(count, total);
    FromU32(count * 100 / total)
  }

  /** Facts about `count * 100 / total` in unsigned integer division. */
  lemma FloorPercent(count: nat, total: nat)
    requires 0 < total
    requires count <= total
    ensures 0 <= count * 100 / total <= 100
    ensures (count * 100 / total) * total <= count * 100 < (count * 100 / total + 1) * total
    ensures count * 100 / total == 100 <==> count == total
    ensures count == 0 ==> count * 100 / total == 0
  {
    var n := count * 100;
    var q := n / total;
    assert n == q * total + n % total;
    assert (q + 1) * total == q * total + total;
    MulMono(count, total, 100);
    assert q * total < 101 * total;
    MulLessCancel(q, 101, total);
    if q == 100 {
      assert 100 * total <= count * 100;
      MulLessCancel(count, total + 1, 100);
    }
    if count == total {
      assert n == 100 * total;
      MulLessCancel(99, q + 1, total);
    }
  }

  /**
   * `get_percentages` over an in-memory population: no sessions is an
   * error; otherwise one percentage per group, in group order.
   */
  function Percentages(sessions: seq<Session>, groups: seq<TagGroup>): (r: Result<seq<Percentage>, AnalyticsError>)
    ensures r.Failure? <==> |sessions| == 0
    ensures r.Failure? ==> r.error == NoSessionFound
    ensures r.Success? ==> |r.value| == |groups|
    ensures r.Success? ==> forall i :: 0 <= i < |groups| ==>
      r.value[i] * |sessions| <= |SessionsWithTagGroup(sessions, groups[i])| * 100
        < (r.value[i] + 1) * |sessions|
  {
    if |sessions| == 0 then Failure(NoSessionFound)
    else Success(seq(|groups|, i requires 0 <= i < |groups| =>
      PercentageOf(|SessionsWithTagGroup(sessions, groups[i])|, |sessions|)))
  }

  /** A group gets 100 exactly when every session has a report matching it. */
  lemma FullShareIffAllMatch(sessions: seq<Session>, groups: seq<TagGroup>, i: nat)
    requires |sessions| > 0
    requires i < |groups|
    ensures Percentages(sessions, groups).value[i] == 100 <==>
      forall k :: 0 <= k < |sessions| ==> ContainsTagGroup(sessions[k], groups[i])
  {
    var count := |SessionsWithTagGroup(sessions, groups[i])|;
    assert Percentages(sessions, groups).value[i] == PercentageOf(count, |sessions|);
  }

  /** How many of the two example sessions match each example group. */
  lemma ExampleCounts(s0: Session, s1: Session, a: TagGroup, b: TagGroup)
    requires s0 == Session(0, [Report(0, ["A"])])
    requires s1 == Session(1, [Report(0, ["A"]), Report(10, ["B"])])
    requires a == TagGroup(0, ["A"]) && b == TagGroup(1, ["B"])
    ensures |SessionsWithTagGroup([s0, s1], a)| == 2
    ensures |SessionsWithTagGroup([s0, s1], b)| == 1
  {
    assert "A" != "B";
    assert ContainsAny(a, s0.reports[0].tags);
    assert ContainsAny(a, s1.reports[0].tags);
    assert !ContainsAny(b, s0.reports[0].tags);
    assert ContainsAny(b, s1.reports[1].tags);
    assert !ContainsTagGroup([s0, s1][0], b);
    assert ContainsTagGroup([s0, s1][1], b);
  }

  /**
   * Two sessions, one tagged `A` and one tagged `A` then `B`: group `A`
   * gets 100 and group `B` gets 50.
   */
  lemma TwoSessionExample()
    ensures
      var r := Percentages(
        [Session(0, [Report(0, ["A"])]), Session(1, [Report(0, ["A"]), Report(10, ["B"])])],
        [TagGroup(0, ["A"]), TagGroup(1, ["B"])]);
      r.Success? && |r.value| == 2 && r.value[0] == 100 && r.value[1] == 50
  {
    var s0 := Session(0, [Report(0, ["A"])]);
    var s1 := Session(1, [Report(0, ["A"]), Report(10, ["B"])]);
    var a := TagGroup(0, ["A"]);
    var b := TagGroup(1, ["B"]);
    ExampleCounts(s0, s1, a, b);
    var r := Percentages([s0, s1], [a, b]);
    assert PercentageOf(2, 2) == 100;
    assert PercentageOf(1, 2) == 50;
    assert r.value[0] == 100;
    assert r.value[1] == 50;
  }
}

=== FILE: runs.dfy ===
/**
 * Run-length grouping: `Session::group_by_ids` splits a sequence into maximal
 * contiguous runs of equal id. The fold is modelled by the positions at which
 * it closes a run (`RunEnds`); the runs themselves are the slices between
 * consecutive closing positions. The payload is generic, so the same grouping
 * applies to reports and to their ids.
 */
module Runs {

  /** Concatenation of the runs, in order. */
  function Flatten<T>(xss: seq<seq<T>>): seq<T> {
    if |xss| == 0 then [] else xss[0] + Flatten(xss[1..])
  }

  /** The id changes between position `i - 1` and position `i`. */
  predicate ChangesAt(ids: seq<int>, i: int) {
    0 < i < |ids| && ids[i - 1] != ids[i]
  }

  /** Strictly increasing positions, each in `(lo, hi]`. */
  predicate Ascending(ends: seq<int>, lo: int, hi: int) {
    && (forall i, j :: 0 <= i < j < |ends| ==> ends[i] < ends[j])
    && (forall k :: 0 <= k < |ends| ==> lo < ends[k] <= hi)
  }

  /**
   * `ends` are the closing positions of maximal runs over the first `n` ids:
   * increasing, the last one is `n`, and inside the prefix a run closes at
   * `i` exactly when the id changes there.
   */
  predicate ClosesAtChanges(ids: seq<int>, ends: seq<int>, n: nat)
    requires n <= |ids|
  {
    && (n == 0 <==> |ends| == 0)
    && (n > 0 ==> ends[|ends| - 1] == n)
    && Ascending(ends, 0, n)
    && forall i :: 0 < i < n ==> (i in ends <==> ChangesAt(ids, i))
  }

  /**
   * One iteration of the fold for element `n - 1`: it extends the current
   * run when its id equals the previous id (the run now closes at `n`), and
   * otherwise the current run is flushed and a new one opened. The first
   * element always opens a run, whatever the initial `current_id`, because
   * the current run is still empty.
   */
  function CloseRun(prev: seq<int>, ids: seq<int>, n: nat): seq<int>
    requires 0 < n <= |ids|
    requires n > 1 ==> |prev| > 0
  {
    if n > 1 && ids[n - 1] == ids[n - 2] then prev[..|prev| - 1] + [n]
    else prev + [n]
  }

  /** The closing positions of the runs after the fold has seen `n` elements. */
  function RunEnds(ids: seq<int>, n: nat): (ends: seq<int>)
    requires n <= |ids|
    ensures |ends| <= n
    ensures n == 0 <==> |ends| == 0
    ensures n > 0 ==> ends[|ends| - 1] == n
    ensures forall k :: 0 <= k < |ends| ==> 0 < ends[k] <= n
  {
    if n == 0 then [] else CloseRun(RunEnds(ids, n - 1), ids, n)
  }

  lemma CloseRunStep(prev: seq<int>, ids: seq<int>, n: nat)
    requires 0 < n <= |ids|
    requires ClosesAtChanges(ids, prev, n - 1)
    ensures ClosesAtChanges(ids, CloseRun(prev, ids, n), n)
  {
    var ends := CloseRun(prev, ids, n);
    if n > 1 && ids[n - 1] == ids[n - 2] {
      assert ends == prev[..|prev| - 1] + [n];
      forall i | 0 < i < n
        ensures i in ends <==> ChangesAt(ids, i)
      {
        if i == n - 1 {
          assert !ChangesAt(ids, i);
        } else if i in prev {
          var k :| 0 <= k < |prev| && prev[k] == i;
          assert k < |prev| - 1;
          assert ends[k] == i;
        }
      }
    } else {
      assert ends == prev + [n];
      if n > 1 {
        assert ChangesAt(ids, n - 1);
      }
    }
  }

  /**
   * The fold closes runs exactly where the id changes (and at the end), so
   * its runs are the maximal contiguous runs of equal id.
   */
  lemma {:induction false} RunEndsAtChanges(ids: seq<int>, n: nat)
    requires n <= |ids|
    ensures ClosesAtChanges(ids, RunEnds(ids, n), n)
  {
    if n > 0 {
      RunEndsAtChanges(ids, n - 1);
      CloseRunStep(RunEnds(ids, n - 1), ids, n);
    }
  }

  /** The slices of `xs` between `start` and each successive end. */
  function Slices<T>(xs: seq<T>, start: int, ends: seq<int>): (runs: seq<seq<T>>)
    requires 0 <= start
    requires Ascending(ends, start, |xs|)
    ensures |runs| == |ends|
    decreases |ends|
  {
    if |ends| == 0 then []
    else
      assert start < ends[0];
      assert Ascending(ends[1..], ends[0], |xs|);
      [xs[start..ends[0]]] + Slices(xs, ends[0], ends[1..])
  }

  /** Ids that never change form one run, which closes at the last element seen. */
  lemma {:induction false} NoChangeOneRun(ids: seq<int>, n: nat)
    requires n <= |ids|
    requires forall i :: 0 < i < n ==> !ChangesAt(ids, i)
    ensures n > 0 ==> RunEnds(ids, n) == [n]
    ensures |RunEnds(ids, n)| <= 1
  {
    if n > 1 {
      NoChangeOneRun(ids, n - 1);
      assert !ChangesAt(ids, n - 1);
    }
  }

  /** `group_by_ids`: the runs of the first `|ids|` elements of `xs`. */
  function GroupByIds<T>(ids: seq<int>, xs: seq<T>): (runs: seq<seq<T>>)
    requires |ids| <= |xs|
    ensures |runs| == |RunEnds(ids, |ids|)|
    ensures |runs| <= |ids|
    ensures |ids| > 0 <==> |runs| > 0
  {
    RunEndsAtChanges(ids, |ids|);
    Slices(xs, 0, RunEnds(ids, |ids|))
  }

  /** Where run `k` starts: the end of the previous run, or 0. */
  function RunStart(ends: seq<int>, k: nat): int
    requires k < |ends|
  {
    if k == 0 then 0 else ends[k - 1]
  }

  /** Run `k` of the slices is the stretch between its start and its end. */
  lemma {:induction false} SlicesAt<T>(xs: seq<T>, start: int, ends: seq<int>, k: nat)
    requires 0 <= start
    requires Ascending(ends, start, |xs|)
    requires k < |ends|
    ensures (if k == 0 then start else ends[k - 1]) < ends[k]
    ensures Slices(xs, start, ends)[k] == xs[(if k == 0 then start else ends[k - 1])..ends[k]]
    decreases k
  {
    if k > 0 {
      assert Ascending(ends[1..], ends[0], |xs|);
      SlicesAt(xs, ends[0], ends[1..], k - 1);
    }
  }

  /** The slices concatenate back to the stretch they cover. */
  lemma {:induction false} FlattenSlices<T>(xs: seq<T>, start: int, ends: seq<int>)
    requires 0 <= start <= |xs|
    requires Ascending(ends, start, |xs|)
    ensures Flatten(Slices(xs, start, ends)) == xs[start..if |ends| == 0 then start else ends[|ends| - 1]]
    decreases |ends|
  {
    if |ends| > 0 {
      var runs := Slices(xs, start, ends);
      assert Ascending(ends[1..], ends[0], |xs|);
      assert runs[1..] == Slices(xs, ends[0], ends[1..]);
      FlattenSlices(xs, ends[0], ends[1..]);
      var last := ends[|ends| - 1];
      if |ends| > 1 {
        assert ends[1..][|ends| - 2] == last;
      }
      assert xs[start..last] == xs[start..ends[0]] + xs[ends[0]..last];
    }
  }

  /** Run `k` is the stretch of `xs` from its start to its closing position. */
  lemma RunAt<T>(ids: seq<int>, xs: seq<T>, k: nat)
    requires |ids| <= |xs|
    requires k < |GroupByIds(ids, xs)|
    ensures var ends := RunEnds(ids, |ids|);
      && 0 <= RunStart(ends, k) < ends[k] <= |ids|
      && GroupByIds(ids, xs)[k] == xs[RunStart(ends, k)..ends[k]]
  {
    RunEndsAtChanges(ids, |ids|);
    SlicesAt(xs, 0, RunEnds(ids, |ids|), k);
  }

  /**
   * `group_by_ids` partitions the grouped prefix: the runs concatenate back
   * to it in order and every run is non-empty.
   */
  lemma GroupByIdsPartition<T>(ids: seq<int>, xs: seq<T>)
    requires |ids| <= |xs|
    ensures Flatten(GroupByIds(ids, xs)) == xs[..|ids|]
    ensures forall k :: 0 <= k < |GroupByIds(ids, xs)| ==> |GroupByIds(ids, xs)[k]| > 0
  {
    RunEndsAtChanges(ids, |ids|);
    FlattenSlices(xs, 0, RunEnds(ids, |ids|));
    forall k | 0 <= k < |GroupByIds(ids, xs)|
      ensures |GroupByIds(ids, xs)[k]| > 0
    {
      RunAt(ids, xs, k);
    }
  }

  /** No id change strictly after `lo` up to `hi`, so the id is the same at both. */
  lemma {:induction false} NoChangeBetween(ids: seq<int>, lo: nat, hi: nat)
    requires lo <= hi < |ids|
    requires forall i :: lo < i <= hi ==> !ChangesAt(ids, i)
    ensures ids[hi] == ids[lo]
    decreases hi - lo
  {
    if lo < hi {
      assert !ChangesAt(ids, hi);
      NoChangeBetween(ids, lo, hi - 1);
    }
  }

  /** No closing position lies strictly inside run `k`. */
  lemma NoEndInsideRun(ends: seq<int>, n: int, k: nat, p: int)
    requires Ascending(ends, 0, n)
    requires k < |ends|
    requires RunStart(ends, k) < p < ends[k]
    ensures p !in ends
  {
    forall m | 0 <= m < |ends|
      ensures ends[m] != p
    {
      if m < k {
        assert ends[m] <= RunStart(ends, k);
      } else {
        assert ends[k] <= ends[m];
      }
    }
  }

  /** Inside closing positions that mark the id changes, a run carries a single id. */
  lemma RunHasOneIdAt(ids: seq<int>, ends: seq<int>, k: nat, i: int)
    requires ClosesAtChanges(ids, ends, |ids|)
    requires k < |ends|
    requires RunStart(ends, k) <= i < ends[k]
    ensures 0 <= i < ends[k] <= |ids| && ids[i] == ids[ends[k] - 1]
  {
    var s := RunStart(ends, k);
    var e := ends[k] - 1;
    assert 0 <= s;
    forall p | s < p <= e
      ensures !ChangesAt(ids, p)
    {
      NoEndInsideRun(ends, |ids|, k, p);
    }
    NoChangeBetween(ids, s, e);
    NoChangeBetween(ids, s, i);
  }

  /** Every position of run `k` carries the id of the run's last position. */
  lemma RunHasOneId(ids: seq<int>, k: nat, i: int)
    requires k < |RunEnds(ids, |ids|)|
    requires RunStart(RunEnds(ids, |ids|), k) <= i < RunEnds(ids, |ids|)[k]
    ensures 0 <= i < RunEnds(ids, |ids|)[k] <= |ids| && ids[i] == ids[RunEnds(ids, |ids|)[k] - 1]
  {
    RunEndsAtChanges(ids, |ids|);
    RunHasOneIdAt(ids, RunEnds(ids, |ids|), k, i);
  }

  /** The id of each run, read at the run's last position. */
  function RunIds(ids: seq<int>): (rids: seq<int>)
    ensures |rids| == |RunEnds(ids, |ids|)|
  {
    var ends := RunEnds(ids, |ids|);
    seq(|ends|, k requires 0 <= k < |ends| => ids[ends[k] - 1])
  }

  /** Every element of run `k` carries the id `RunIds(ids)[k]`. */
  lemma RunIdsLabelRuns(ids: seq<int>)
    ensures forall k, j :: 0 <= k < |GroupByIds(ids, ids)| && 0 <= j < |GroupByIds(ids, ids)[k]| ==>
      GroupByIds(ids, ids)[k][j] == RunIds(ids)[k]
  {
    var ends := RunEnds(ids, |ids|);
    var runs := GroupByIds(ids, ids);
    forall k, j | 0 <= k < |runs| && 0 <= j < |runs[k]|
      ensures runs[k][j] == RunIds(ids)[k]
    {
      RunAt(ids, ids, k);
      RunHasOneId(ids, k, RunStart(ends, k) + j);
    }
  }

  /** When the id changes at every position, every element is a run of its own. */
  lemma {:induction false} AllChangesEnds(ids: seq<int>, n: nat)
    requires n <= |ids|
    requires forall i :: 0 < i < n ==> ChangesAt(ids, i)
    ensures RunEnds(ids, n) == seq(n, k => k + 1)
  {
    if n > 0 {
      AllChangesEnds(ids, n - 1);
      if n > 1 {
        assert ChangesAt(ids, n - 1);
      }
      assert seq(n - 1, k => k + 1) + [n] == seq(n, k => k + 1);
    }
  }

  /** When the id changes at every position, the run ids are the ids themselves. */
  lemma AllChangesRunIds(ids: seq<int>)
    requires forall i :: 0 < i < |ids| ==> ChangesAt(ids, i)
    ensures RunIds(ids) == ids
  {
    AllChangesEnds(ids, |ids|);
  }

  /** All ids inside each run are equal. */
  ghost predicate UniformRuns(runs: seq<seq<int>>) {
    forall k, j :: 0 <= k < |runs| && 0 <= j < |runs[k]| ==> runs[k][j] == runs[k][0]
  }

  /** The last id of run `k` differs from the first id of run `k + 1`. */
  predicate BoundaryDiffers(runs: seq<seq<int>>, k: nat)
    requires k + 1 < |runs|
  {
    |runs[k]| > 0 && |runs[k + 1]| > 0 && runs[k][|runs[k]| - 1] != runs[k + 1][0]
  }

  /** Adjacent runs never share an id across their boundary. */
  ghost predicate AdjacentRunsDiffer(runs: seq<seq<int>>) {
    forall k :: 0 <= k < |runs| - 1 ==> BoundaryDiffers(runs, k)
  }

  /** Run `k` ends where the id changes, so the next run starts with a different id. */
  lemma BoundaryAt(ids: seq<int>, k: nat)
    requires k + 1 < |GroupByIds(ids, ids)|
    ensures BoundaryDiffers(GroupByIds(ids, ids), k)
  {
    var ends := RunEnds(ids, |ids|);
    var runs := GroupByIds(ids, ids);
    RunEndsAtChanges(ids, |ids|);
    RunAt(ids, ids, k);
    RunAt(ids, ids, k + 1);
    assert runs[k][|runs[k]| - 1] == ids[ends[k] - 1];
    assert runs[k + 1][0] == ids[ends[k]];
    assert ends[k] < ends[|ends| - 1];
    assert ChangesAt(ids, ends[k]);
  }

  /**
   * The runs are maximal: all ids inside a run are equal, and two adjacent
   * runs have different ids.
   */
  lemma GroupByIdsMaximal(ids: seq<int>)
    ensures UniformRuns(GroupByIds(ids, ids))
    ensures AdjacentRunsDiffer(GroupByIds(ids, ids))
  {
    var runs := GroupByIds(ids, ids);
    RunIdsLabelRuns(ids);
    forall k | 0 <= k < |runs| - 1
      ensures BoundaryDiffers(runs, k)
    {
      BoundaryAt(ids, k);
    }
  }
}

=== FILE: types.dfy ===
/**
 * The values the funnel engine works on. Timestamps and durations are
 * milliseconds; `std::time::Duration` becomes a `nat`, `i64` timestamps and
 * `i32` group ids become unbounded `int`s.
 */
module Types {

  /** One recorded event of a session: when it happened and the tags it carries. */
  datatype Report = Report(timeMs: int, tags: seq<string>)

  /** A caller-supplied funnel stage: an id and the tag names that identify it. */
  datatype TagGroup = TagGroup(id: int, tagsNames: seq<string>)

  /** A session is its (opaque) id and its reports in recorded order. */
  datatype Session = Session(sessionId: nat, reports: seq<Report>)

  /** One funnel step: its position, the stage it was assigned and how long it took. */
  datatype Step = Step(stepNumber: nat, tagGroup: TagGroup, duration: nat)

  datatype GroupedSession = GroupedSession(steps: seq<Step>)

  /** Aggregate over all grouped sessions for one step index. */
  datatype StepAnalysis = StepAnalysis(stepNumber: nat, averageDuration: int, tagGroupsSorted: seq<TagGroup>)
}

=== FILE: wrappers.dfy ===
/** Failure-carrying values used where the source returns `Option` or `Result`. */
module Wrappers {

  datatype Option<+T> = None | Some(value: T)

  datatype Result<+T, +E> = Success(value: T) | Failure(error: E)
}
